=== FILE: README.md ===
# fonparam-mcp: the tool bridge, modelled in Dafny

fonparam-mcp exposes the FonParam investment-fund REST API as fifteen tools of
a Model Context Protocol server. This project models the part of it that
decides what happens to a tool call:

- **the tool catalog** (`Catalog`): every tool's name and the JSON input schema
  the host is shown for it, in the order the server lists them;
- **argument validation** (`Schema`): the zod object schemas used for nine of
  the tools, in zod's default strip mode. A parse either returns the declared
  properties that are present, in declaration order, or fails with at least
  one issue per offending field (an array field can raise a length issue and
  one issue per non-string item), each carrying a path and an issue code;
- **the dispatcher** (`Tools`): `handleToolCall`'s switch in source order.
  Validated tools parse their arguments and build the client call from the
  parsed object. Four tools pass raw argument values straight through. An
  unknown name throws `Bilinmeyen araç: <name>`. A validation failure throws
  `Parametre hatası: ` followed by the issues' `path: message` lines joined
  with `, `. Any other error is rethrown unchanged;
- **the API client** (`ApiClient`): for each client method, the request it
  sends (path and query entries in property order), or the error it throws
  first (`compareFunds` with fewer than two or more than five codes, or a path
  argument without a text form, which throws JavaScript's `TypeError`); the
  response interceptor's error messages; and `healthCheck`;
- **the shared types** (`Types`): the fund-type, sort-order, interval,
  start-date and increase-type enumerations, and the parameter records of the
  client methods.

Supporting modules:

- `Json` holds JSON values and JavaScript's `undefined` (`JsValue` is
  `Option<Value>`), object entries in insertion order, truthiness and
  template-literal interpolation.
- `Text` holds number printing, `join` and `split`.
- `Wrappers` holds `Option` and `Result`.

The HTTP exchange is a parameter: `Transport` maps a request to a response
body or a failure (an answer with an error status, no answer, or a request that
could not be sent). zod's wording of each issue is also a parameter
(`messageOf`), so messages are modelled up to that wording.

The dispatcher in source code matches the label `ompany_details`, not the
catalog's `company_details`. The model keeps the code as written:
`Tools.HandleToolCall` and `Tools.Invoke` use that label, so `company_details`
ends in the unknown-tool error. `Tools.HandleToolCallCorrected` is the same
dispatcher with the label corrected; only the Findings lemmas and
`Tools.CorrectionOnlyTouchesLabels`, which relates the two dispatchers, use it.

## Model

| member | source | states |
|---|---|---|
| Types.FundTypeEnumeration | src/types.ts:3-18 | The fund-type enumeration has exactly fourteen members, lists every one, and no two share a string value |
| Types.ParseFundTypeRoundTrip | src/types.ts:3-18 | Reading a fund type's string value gives the fund type back; exactly the fourteen values are read |
| Types.SortOrderEnumeration | src/types.ts:216 | The sort direction is `ASC` or `DESC`, and reading either gives it back |
| Types.IntervalEnumeration | src/types.ts:232 | The historical interval is `daily`, `weekly` or `monthly`, and reading each gives it back |
| Types.StartDateEnumeration | src/types.ts:160 | The analysis start window is one of nine distinct names, and reading each gives it back |
| Types.IncreaseTypeEnumeration | src/types.ts:163-166 | The yearly increase type is `percentage` or `amount`, and reading each gives it back |
| Schema.ValueIssues | src/tools.ts:6-77 | A present value has no issue exactly when its field type accepts it, and every issue lies at or below the value's path |
| Schema.ElementIssues | src/tools.ts:21 | The items of a string array raise no issue exactly when all are strings, each issue one level below the array |
| Schema.FieldIssues | src/tools.ts:6-77 | A field raises no issue exactly when it is absent and optional, or present and accepted; its issues lie under its own key |
| Schema.Validate | src/tools.ts:6-77 | An argument object gets no issue exactly when it conforms to every field of the schema |
| Schema.Parse | src/tools.ts:6-77 | `parse` succeeds exactly for conforming objects, returns the stripped object, and otherwise reports at least one issue |
| Schema.IssueLocated | src/tools.ts:6-77 | Every reported issue lies under a declared field that the arguments fail |
| Schema.FailureReported | src/tools.ts:6-77 | Every declared field that the arguments fail is reported by at least one issue |
| Schema.Strip | src/tools.ts:6-77 | The strip-mode output of a parse has at most one entry per declared property |
| Schema.StripKeepsEveryField | src/tools.ts:6-77 | The output has an entry for every declared property exactly when the arguments give every one of them |
| Schema.StripKeepsDeclaredValues | src/tools.ts:6-77 | Every entry of a parse's output is a declared property that carries the argument's own value |
| Schema.StripKeepsPresentFields | src/tools.ts:6-77 | Every declared property present in the arguments survives the parse |
| Schema.StripIsDefinedDeclared | src/tools.ts:6-77 | A parse's output is the declared properties in order with their values, less those that are undefined |
| Schema.StripOmitsAbsent | src/tools.ts:6-77 | A parse's output has no entry for a property the arguments lack |
| Schema.StripOmitsUndeclared | src/tools.ts:6-77 | A parse's output has no entry for a property the schema does not declare (unknown keys are stripped) |
| Schema.ParsedPropertyRead | src/tools.ts:6-77 | Reading a declared property from a parse's output gives the argument's value, or `undefined` when it is absent |
| Schema.SchemaEnumerationsMatchTypes | src/tools.ts:17-69 | The literal option lists of the schemas are the sort, interval, increase-type and start-date enumerations of the shared types |
| Catalog.Find | src/tools.ts:87-471 | A name finds a catalog entry exactly when the catalog lists it, and the entry carries that name |
| Catalog.CatalogNames | src/tools.ts:87-471 | The catalog lists fifteen distinct names in server order, `company_details` among them |
| Catalog.FindListed | src/tools.ts:87-471 | A listed name finds the one entry that carries it |
| Catalog.DescribedFieldHolds | src/tools.ts:87-471 | A validator field accepts a value exactly when its advertised JSON-schema property admits it |
| Catalog.DescribedSchemaAgrees | src/tools.ts:87-471 | A validator schema and its advertised input schema admit exactly the same argument objects |
| Catalog.ListFundsDescribed | src/tools.ts:89-150 | The advertised `list_funds` schema is the description of its validator |
| Catalog.CompareFundsDescribed | src/tools.ts:164-182 | The advertised `compare_funds` schema is the description of its validator |
| Catalog.AnalyzeFundDescribed | src/tools.ts:183-225 | The advertised `analyze_fund` schema is the description of its validator |
| Catalog.HistoricalDataDescribed | src/tools.ts:226-261 | The advertised `fund_historical_data` schema is the description of its validator |
| Catalog.ListCompaniesDescribed | src/tools.ts:262-304 | The advertised `list_companies` schema is the description of its validator |
| Catalog.CompanyDetailsDescribed | src/tools.ts:305-322 | The advertised `company_details` schema is the description of its validator |
| Catalog.StatisticsDescribed | src/tools.ts:323-359 | The advertised `statistics` schema is the description of its validator |
| Catalog.FundTypesDescribed | src/tools.ts:382-409 | The advertised `list_fund_types` schema is the description of its validator |
| Catalog.InflationDescribed | src/tools.ts:425-441 | The advertised `inflation_rates` schema is the description of its validator |
| Catalog.CatalogAdvertisesSchemas | src/tools.ts:87-471 | Each of the nine validator schemas is exactly what the catalog advertises for its tool |
| ApiClient.Build | src/api-client.ts:56-188 | Each client method either sends a request whose path starts with `/` under the base URL, or throws before sending, and then only the code-count message or the conversion `TypeError` |
| ApiClient.LocalRejection | src/api-client.ts:73-188 | A client method throws before sending exactly when `compareFunds` gets fewer than two or more than five codes, or a date, fund-type, year or month path argument has no text form |
| ApiClient.CompareFundsRequest | src/api-client.ts:73-80 | `compareFunds` fails with the count message exactly for fewer than two or more than five codes, and otherwise sends the comma-joined codes as `codes` |
| ApiClient.CompareCodesRecoverable | src/api-client.ts:77 | When no code contains a comma, the `codes` parameter splits back into the codes in their order |
| ApiClient.AnalysisQueryFlattens | src/api-client.ts:85-99 | The analysis query never carries `code`, keeps every other parameter under its own name, and its dotted keys agree with the nested yearly increase: both `undefined` without one |
| ApiClient.AnalyzeFundPath | src/api-client.ts:95 | For a code without `/`, the analysis path splits into the segments of `/funds/<code>/analyze`, with the code as a segment of its own |
| ApiClient.ReferenceFundsSentWhenTruthy | src/api-client.ts:64-68 | For any forwarded value, `funds` is sent, unchanged and alone, exactly when the value is truthy: a non-empty string, but also an empty array; `undefined`, `""` and `0` send nothing |
| ApiClient.HistoricalDataPath | src/api-client.ts:104-107 | For a code without `/`, the historical-data path splits into the segments of `/funds/<code>/historical` |
| ApiClient.IncludeFundsDefaultsToTrue | src/api-client.ts:120-124 | `include_funds` is always sent, and is `false` only when asked for |
| ApiClient.CompanyDetailsPath | src/api-client.ts:122 | For a code without `/`, the company path splits into the segments of `/companies/<code>` |
| ApiClient.PathArgumentsConvert | src/api-client.ts:145-188 | A date, fund-type or year/month path argument builds a request exactly when it has a text form; otherwise the conversion's `TypeError` is thrown before any request |
| ApiClient.StatisticsByDatePath | src/api-client.ts:145-148 | A raw date of any JSON kind with a text form that has no `/` is requested as `/statistics/<text>`, the text a segment of its own |
| ApiClient.FundTypeDetailsPath | src/api-client.ts:161-164 | A raw fund type of any JSON kind with a text form that has no `/` is requested as `/fund-types/<text>`, the text a segment of its own |
| ApiClient.InflationMonthPath | src/api-client.ts:185-188 | A month given as whole numbers is addressed as `/inflation/<year>/<month>` in decimal |
| ApiClient.Normalize | src/api-client.ts:39-50 | An interceptor message starts with `API request failed: ` exactly when the server did not answer; an answer's message is a status line starting `API Error ` or, for a detail without a text form, the conversion `TypeError` |
| ApiClient.StatusLineIsAnswer | src/api-client.ts:43 | A status line starts with `API Error ` and never with `API request failed: ` |
| ApiClient.ResponseErrorMessage | src/api-client.ts:42-43 | An error answer reads `API Error <status>: ` then the body's `error` text when it is non-empty, otherwise the status text |
| ApiClient.ResponseErrorPrefix | src/api-client.ts:41-49 | A message starts with `API Error ` exactly when the server answered and its `error` detail prints; an unprintable detail makes the interceptor throw the `TypeError` instead |
| ApiClient.UnprintableDetailThrows | src/api-client.ts:43 | An answer whose `error` is an object with its own `toString` yields the conversion's `TypeError` message, not a status line |
| ApiClient.RequestFailureMessages | src/api-client.ts:44-47 | A request with no answer reads exactly `API request failed: No response received`; one that could not be sent reads `API request failed: ` followed by its own message |
| ApiClient.StatusLineRecoverable | src/api-client.ts:43 | Two status lines that read the same carry the same status |
| ApiClient.ResponseStatusRecoverable | src/api-client.ts:43 | Two error answers with the same message agree on whether the detail prints and, when it does, have the same status |
| ApiClient.NormalizedFailuresDistinguishable | src/api-client.ts:41-49 | Equal messages agree on whether the server answered and, if it did and its detail prints, on the status |
| ApiClient.NoResponseLookalike | src/api-client.ts:44-47 | A request that could not be sent with the message `No response received` reads exactly like one that got no answer |
| ApiClient.Execute | src/api-client.ts:39-50 | A request returns the response body unchanged, or throws the interceptor's message for its failure |
| ApiClient.Perform | src/api-client.ts:56-188 | A client method returns a body exactly when its request is built and the server answers it, and then returns that body unchanged; an error thrown before sending is thrown as is, whatever the network would answer |
| ApiClient.HealthCheck | src/api-client.ts:193-200 | The health check is true exactly when the probe `/fund-types?limit=1` succeeds; it never throws |
| ApiClient.ClientErrorOrigins | src/api-client.ts:41-188 | Every error a client method throws starts with `A` (an HTTP failure), `2` (the code count of `compareFunds`) or `C` (the `TypeError` of a value without a text form) |
| Tools.Dispatch | src/tools.ts:477-545 | An unknown-tool outcome names the tool that was asked for, and a validation failure carries at least one issue |
| Tools.HandleToolCall | src/tools.ts:475-546 | The dispatcher as written sends `company_details` to the unknown-tool error |
| Tools.HandleToolCallCorrected | src/tools.ts:513-515 | With the label corrected, `company_details` either fails validation or calls `getCompanyDetails` |
| Tools.CorrectionOnlyTouchesLabels | src/tools.ts:477-545 | Correcting the label changes the outcome for no name other than the two labels |
| Tools.Validated | src/tools.ts:479-480 | A validated tool reports the validator's issues exactly when the arguments do not conform, and otherwise calls the client with the parsed object |
| Tools.UnknownToolIffUnmatched | src/tools.ts:477-545 | A name fails as unknown exactly when no case label matches it, and the error names it |
| Tools.UnknownToolSendsNothing | src/tools.ts:544-545 | An unknown name throws `Bilinmeyen araç: <name>` whatever the network would answer |
| Tools.CompanyDetailsUnreachable | src/tools.ts:513-515 | `company_details` is listed by the catalog but matched by no case label, so it always throws the unknown-tool error |
| Tools.CorrectedDispatchMatchesCatalog | src/tools.ts:477-545 | With the label corrected, the case labels are exactly the catalog's names in the same order |
| Tools.CorrectedCompanyDetailsValidates | src/tools.ts:513-515 | With the label corrected, `company_details` rejects exactly the arguments its advertised schema refuses |
| Tools.CorrectedCompanyDetailsForwards | src/tools.ts:513-515 | With the label corrected, accepted arguments call `getCompanyDetails` with the given code and the given `include_funds` flag, if any |
| Tools.DispatchValidates | src/tools.ts:477-536 | Each validated tool's case parses with its own schema and builds its own client call |
| Tools.ValidationEnforcesCatalog | src/tools.ts:477-536 | A validated tool rejects exactly the arguments that break its advertised input schema, reporting the validator's issues, and otherwise makes a call |
| Tools.ListFundsAcceptance | src/tools.ts:478-480 | `list_funds` makes its call exactly when page ≥ 1, 1 ≤ limit ≤ 100, the type is a fund type, both risk values lie in 1..7, the order is `ASC`/`DESC` and the other fields have their types |
| Tools.AnalyzeFundAcceptance | src/tools.ts:489-490 | `analyze_fund` makes its call exactly when a code, one of the nine start windows and a non-negative initial investment are given and the optional amounts are non-negative |
| Tools.CompareFundsForwardsCodes | src/tools.ts:485-487 | `compare_funds` calls exactly for an array of two to five strings, forwards them in order, and the client's count check then passes |
| Tools.AnalyzeFundForwards | src/tools.ts:489-502 | An accepted analysis passes code, window and amounts through, and builds the yearly increase exactly when both halves are given and the value is not 0 |
| Tools.HistoricalDataSplitsCode | src/tools.ts:504-507 | An accepted historical-data call puts the code in the path and sends every other parsed field, and not `code`, as the query |
| Tools.ListFundsParamsRoundTrip | src/tools.ts:479-480 | Reading a valid `list_funds` object into its parameter record and sending that record as a query gives the parsed object back |
| Tools.ListCompaniesParamsRoundTrip | src/tools.ts:510-511 | The same round trip for `list_companies` |
| Tools.StatisticsParamsRoundTrip | src/tools.ts:518-519 | The same round trip for `statistics` |
| Tools.FundTypesParamsRoundTrip | src/tools.ts:528-529 | The same round trip for `list_fund_types` |
| Tools.InflationParamsRoundTrip | src/tools.ts:535-536 | The same round trip for `inflation_rates` |
| Tools.HistoricalDataParamsRoundTrip | src/tools.ts:505-507 | The same round trip for `fund_historical_data`, whose record lacks `code` |
| Tools.ListFundsSendsParsedObject | src/tools.ts:478-480 | An accepted `list_funds` call requests `/funds` with exactly the validator's output as its query |
| Tools.ListCompaniesSendsParsedObject | src/tools.ts:509-511 | An accepted `list_companies` call requests `/companies` with exactly the validator's output |
| Tools.StatisticsSendsParsedObject | src/tools.ts:517-519 | An accepted `statistics` call requests `/statistics` with exactly the validator's output |
| Tools.FundTypesSendsParsedObject | src/tools.ts:527-529 | An accepted `list_fund_types` call requests `/fund-types` with exactly the validator's output |
| Tools.InflationSendsParsedObject | src/tools.ts:534-536 | An accepted `inflation_rates` call requests `/inflation` with exactly the validator's output |
| Tools.UncheckedToolsNeverReject | src/tools.ts:482-542 | The four unvalidated tools never reject: they forward the raw argument values, whatever they are |
| Tools.InflationMonthMissingArguments | src/tools.ts:541-542 | `inflation_rate_by_month` with no arguments, which its advertised schema refuses, still requests `/inflation/undefined/undefined` |
| Tools.InflationMonthBoundsUnenforced | src/tools.ts:541-542 | A year before 2000 and a month 13, which the advertised bounds refuse, are requested as given |
| Tools.UncheckedPathArgumentThrows | src/tools.ts:524-552 | A raw date, fund type or year without a text form passes the dispatcher, and the client's `TypeError` is rethrown unchanged |
| Tools.StatisticsByDateObjectThrows | src/tools.ts:524-525 | `statistics_by_date` with the date `{"toString": "x"}` fails with the conversion's `TypeError` |
| Tools.PathTextRecoverable | src/tools.ts:549 | With no dot in any property name, an issue's printed path splits back into its keys |
| Tools.ParamErrorText | src/tools.ts:547-550 | A validation error message starts with `Parametre hatası: ` and never with the unknown-tool prefix |
| Tools.ParamErrorReportsEachIssue | src/tools.ts:548-550 | A parameter error's message starts with `Parametre hatası: ` and contains the line of every issue |
| Tools.Respond | src/tools.ts:475-553 | An unknown name and a validation failure always throw, and every thrown message is non-empty |
| Tools.Invoke | src/tools.ts:475-553 | A thrown message starts with `Bilinmeyen araç: ` exactly when the name is unknown, and with `Parametre hatası: ` exactly when validation failed |
| Tools.InvokeDelivers | src/tools.ts:475-553 | A tool call succeeds exactly when it makes a client call whose request is built and answered, and it returns the response body unchanged |
| Tools.ErrorOrigins | src/tools.ts:544-552 | An error message starts with the unknown-tool prefix exactly for unknown names and with the parameter-error prefix exactly for rejected arguments; client errors are rethrown unchanged |
| Json.Interpolate | src/api-client.ts:43-186 | A template literal prints `undefined` for a missing value and a string unchanged, and throws the conversion `TypeError` exactly for an object with its own `toString` or an array holding one |
| Json.InterpolateExamples | src/api-client.ts:146 | A template literal prints `undefined`, `[object Object]` and comma-joined arrays, and throws for an object with its own `toString`, even inside nested arrays |
| Text.NatTextRoundTrip | src/api-client.ts:43 | Printing a natural number in decimal and reading the digits back gives the number |
| Text.NumberTextOfInteger | src/api-client.ts:186 | An integer-valued number prints exactly as the integer does |
| Text.SplitJoin | src/api-client.ts:77 | Joining separator-free parts and splitting at the separator gives the parts back |
| Text.JoinContainsParts | src/tools.ts:549 | Every part occurs in the joined text |

## Left out

- Tool and property descriptions in the catalog: prose for the host, not behaviour.
- The response records of the shared types (funds, yields, companies, statistics, inflation, analysis results): the bridge returns response bodies unchanged, so a body is a JSON `Value`. Only the paginated envelope is written out.
- The server entry point that registers the tools and serialises results as text, and the API's OpenAPI description: they are outside the dispatcher and client.
- The HTTP exchange itself, the base URL, the 30-second timeout and the request headers: the exchange is the `send` parameter, and the failure kinds it can report are modelled.
- How the HTTP library turns query entries into a query string (nested objects and arrays, percent-encoding): the model stops at the entries in property order.
- zod's message wording: each issue's text is the `messageOf` parameter. zod's own order of issues within one field is modelled only for the cases that arise here: length before items, minimum before maximum.
- Floating point: JSON numbers are `real`. Number printing covers integers and terminating decimals. JavaScript's shortest round-trip digits and exponent notation are not modelled, and neither are `NaN` and infinities, which JSON cannot carry.
- Tools.AnalysisParamsFrom: the fallbacks for the three required analysis fields only exist because the model reads an untyped parsed object. `Tools.AnalyzeFundForwards` shows they are never taken.
- Json.Interpolate: the `TypeError` message is V8's wording, and only the source of the error is modelled: a JSON object with its own `toString` key, or an array containing one. Other ways a value can lack a text form do not arise from JSON.
- ApiClient.InflationMonthPath: states the path only for whole non-negative years and months. Other numbers print through `Text.NumberText`, which the model does not state further.
- ApiClient.AnalyzeFundPath: states the segments only for a code without a slash. With a slash, the path gains segments, as it does in the source.
- ApiClient.CompanyDetailsPath: states the segments only for a code without a slash, for the same reason.
- ApiClient.StatisticsByDatePath: states the segments only for a date whose text form has no slash. A date without a text form throws, which `ApiClient.PathArgumentsConvert` states.
- ApiClient.FundTypeDetailsPath: states the segments only for a type whose text form has no slash. A type without a text form throws, as for the date.
- ApiClient.HistoricalDataPath: like the other path lemmas, it states the segments only for arguments without a slash. With a slash, the path gains segments, as it does in the source.

## Findings

| source | as written | input that shows it | evidently intended | confidence | as-written member | corrected member |
|---|---|---|---|---|---|---|
| src/tools.ts:513 | the case label reads `ompany_details` | tool `company_details` with arguments `{"code": "AKP"}`: the catalog lists it, but the call throws `Bilinmeyen araç: company_details` | the label `company_details`, which the catalog advertises and which validates with its schema and calls `getCompanyDetails` | high (not executed) | Tools.CompanyDetailsUnreachable | Tools.CorrectedDispatchMatchesCatalog |

=== FILE: api_client.dfy ===
/** The client of the remote fund-data service: how each method turns its
    typed parameters into a GET request, how every failure is turned into
    one error message, and the health probe. The request is taken before
    the HTTP library serialises it: a path and the query-parameter object's
    entries. The network itself is a `Transport` parameter. */
module ApiClient {
  import opened Wrappers
  import opened Json
  import opened Text
  import opened Types

  /** A GET request: the path under the base URL and the query-parameter
      object's entries, in insertion order. */
  datatype Request = Request(path: string, query: Entries)

  /** How a request can fail: the server answered with an error status, the
      request went out and nothing came back, or it could not be sent. */
  datatype HttpFailure =
    | ResponseError(status: int, data: JsValue, statusText: string)
    | NoResponse
    | SetupError(message: string)

  datatype Response = Ok(body: Value) | Failed(failure: HttpFailure)

  /** The network: what the remote service answers to a request. */
  type Transport = Request -> Response

  /** One call of a client method with its arguments. Arguments the tool
      dispatcher forwards without validation are arbitrary JavaScript values. */
  datatype ApiCall =
    | ListFunds(fundsParams: ListFundsParams)
    | GetTopPerformingFunds(referenceFunds: JsValue)
    | CompareFunds(codes: seq<string>)
    | AnalyzeFund(analysisParams: FundAnalysisParams)
    | GetFundHistoricalData(fundCode: string, historyParams: HistoricalDataParams)
    | ListCompanies(companiesParams: ListCompaniesParams)
    | GetCompanyDetails(companyCode: string, includeFunds: Option<bool>)
    | GetStatistics(statisticsParams: StatisticsParams)
    | GetLatestStatistics
    | GetStatisticsByDate(date: JsValue)
    | ListFundTypes(fundTypesParams: FundTypesParams)
    | GetFundTypeDetails(fundType: JsValue)
    | GetInflationRates(inflationParams: InflationParams)
    | GetLatestInflationRate
    | GetInflationRateByMonth(year: JsValue, month: JsValue)

  const CompareCountError: string := "2-5 arasında fon kodu belirtmelisiniz"
  /** The prefix of the messages for requests that got no answer. */
  const RequestFailedPrefix: string := "API request failed: "
  const NoResponseMessage: string := "API request failed: No response received"

  /** The probe of the health check; its query string is part of the path. */
  const HealthProbe: Request := Request("/fund-types?limit=1", [])

  function NumberOf(n: Option<real>): JsValue {
    if n.Some? then Some(Num(n.value)) else None
  }

  function StringOf(s: Option<string>): JsValue {
    if s.Some? then Some(Str(s.value)) else None
  }

  function BooleanOf(b: Option<bool>): JsValue {
    if b.Some? then Some(Bool(b.value)) else None
  }

  function OrderOf(o: Option<SortOrder>): JsValue {
    if o.Some? then Some(Str(o.value.Text())) else None
  }

  function FundTypeOf(t: Option<FundType>): JsValue {
    if t.Some? then Some(Str(t.value.Text())) else None
  }

  function IntervalOf(i: Option<Interval>): JsValue {
    if i.Some? then Some(Str(i.value.Text())) else None
  }

  /** The query of each list method: the parameter object's defined
      properties, in the order the record declares them. */
  function ListFundsQuery(p: ListFundsParams): Entries {
    Defined([
      ("page", NumberOf(p.page)),
      ("limit", NumberOf(p.limit)),
      ("type", FundTypeOf(p.fundType)),
      ("search", StringOf(p.search)),
      ("code", StringOf(p.code)),
      ("management_company", StringOf(p.managementCompany)),
      ("tefas", BooleanOf(p.tefas)),
      ("min_risk_value", NumberOf(p.minRiskValue)),
      ("max_risk_value", NumberOf(p.maxRiskValue)),
      ("sort", StringOf(p.sort)),
      ("order", OrderOf(p.order))])
  }

  function HistoricalDataQuery(p: HistoricalDataParams): Entries {
    Defined([
      ("start_date", StringOf(p.startDate)),
      ("end_date", StringOf(p.endDate)),
      ("interval", IntervalOf(p.interval)),
      ("sort", StringOf(p.sort)),
      ("order", OrderOf(p.order))])
  }

  function ListCompaniesQuery(p: ListCompaniesParams): Entries {
    Defined([
      ("page", NumberOf(p.page)),
      ("limit", NumberOf(p.limit)),
      ("sort", StringOf(p.sort)),
      ("order", OrderOf(p.order)),
      ("min_total_funds", NumberOf(p.minTotalFunds)),
      ("max_total_funds", NumberOf(p.maxTotalFunds)),
      ("search", StringOf(p.search))])
  }

  function StatisticsQuery(p: StatisticsParams): Entries {
    Defined([
      ("start_date", StringOf(p.startDate)),
      ("end_date", StringOf(p.endDate)),
      ("sort", StringOf(p.sort)),
      ("order", OrderOf(p.order)),
      ("page", NumberOf(p.page)),
      ("limit", NumberOf(p.limit))])
  }

  function FundTypesQuery(p: FundTypesParams): Entries {
    Defined([
      ("sort", StringOf(p.sort)),
      ("order", OrderOf(p.order)),
      ("min_total_funds", NumberOf(p.minTotalFunds)),
      ("max_total_funds", NumberOf(p.maxTotalFunds))])
  }

  function InflationQuery(p: InflationParams): Entries {
    Defined([("start_date", StringOf(p.startDate)), ("end_date", StringOf(p.endDate))])
  }

  /** The nested `yearlyIncrease` object as a JavaScript value. */
  function IncreaseObject(y: Option<YearlyIncrease>): JsValue {
    if y.Some? then Some(Obj(map["type" := Str(y.value.kind.Text()), "value" := Num(y.value.value)]))
    else None
  }

  /** The analysis query: every parameter but `code`, in the order the tool
      dispatcher builds the parameter object (each key present, possibly
      `undefined`), followed by the two dotted keys copied out of the nested
      object. */
  function AnalysisQuery(p: FundAnalysisParams): Entries {
    var nested := IncreaseObject(p.yearlyIncrease);
    [ ("startDate", Some(Str(p.startDate.Text()))),
      ("initialInvestment", Some(Num(p.initialInvestment))),
      ("monthlyInvestment", NumberOf(p.monthlyInvestment)),
      ("yearlyIncrease", nested),
      ("includeMonthlyDetails", BooleanOf(p.includeMonthlyDetails)),
      ("yearlyIncrease.type", Member(nested, "type")),
      ("yearlyIncrease.value", Member(nested, "value")) ]
  }

  /** `compareFunds`: between two and five codes, sent comma-joined in the
      given order as the single parameter `codes`; any other count fails
      before a request exists. */
  function CompareFundsRequest(codes: seq<string>): (r: Result<Request, string>)
    ensures r.Failure? <==> |codes| < 2 || |codes| > 5
    ensures r.Failure? ==> r.error == CompareCountError
    ensures r.Success? ==>
              r.value.path == "/funds/compare" && r.value.query == [("codes", Some(Str(Join(codes, ","))))]
  {
    if |codes| < 2 || |codes| > 5 then Failure(CompareCountError)
    else Success(Request("/funds/compare", [("codes", Some(Str(Join(codes, ","))))]))
  }

  /** Whether a client method throws before sending anything: the count
      check of `compareFunds`, or a path argument without a text form. */
  predicate LocallyRejected(call: ApiCall) {
    match call
    case CompareFunds(codes) => !(2 <= |codes| <= 5)
    case GetStatisticsByDate(date) => date.Some? && !Convertible(date.value)
    case GetFundTypeDetails(t) => t.Some? && !Convertible(t.value)
    case GetInflationRateByMonth(year, month) =>
      (year.Some? && !Convertible(year.value)) || (month.Some? && !Convertible(month.value))
    case _ => false
  }

  /** The request a client method sends, or the error it throws first. */
  function Build(call: ApiCall): (r: Result<Request, string>)
    ensures r.Failure? ==> r.error == CompareCountError || r.error == ConversionError
    ensures r.Success? ==> |r.value.path| > 0 && r.value.path[0] == '/'
  {
    match call
    case ListFunds(p) => Success(Request("/funds", ListFundsQuery(p)))
    case GetTopPerformingFunds(ref) =>
      Success(Request("/funds/top-performing", if Truthy(ref) then [("funds", ref)] else []))
    case CompareFunds(codes) => CompareFundsRequest(codes)
    case AnalyzeFund(p) => Success(Request("/funds/" + p.code + "/analyze", AnalysisQuery(p)))
    case GetFundHistoricalData(code, p) =>
      Success(Request("/funds/" + code + "/historical", HistoricalDataQuery(p)))
    case ListCompanies(p) => Success(Request("/companies", ListCompaniesQuery(p)))
    case GetCompanyDetails(code, includeFunds) =>
      Success(Request("/companies/" + code, [("include_funds", Some(Bool(includeFunds.GetOr(true))))]))
    case GetStatistics(p) => Success(Request("/statistics", StatisticsQuery(p)))
    case GetLatestStatistics => Success(Request("/statistics/latest", []))
    case GetStatisticsByDate(date) =>
      (match Interpolate(date)
       case Failure(e) => Failure(e)
       case Success(d) => Success(Request("/statistics/" + d, [])))
    case ListFundTypes(p) => Success(Request("/fund-types", FundTypesQuery(p)))
    case GetFundTypeDetails(t) =>
      (match Interpolate(t)
       case Failure(e) => Failure(e)
       case Success(d) => Success(Request("/fund-types/" + d, [])))
    case GetInflationRates(p) => Success(Request("/inflation", InflationQuery(p)))
    case GetLatestInflationRate => Success(Request("/inflation/latest", []))
    case GetInflationRateByMonth(year, month) =>
      (match Interpolate(year)
       case Failure(e) => Failure(e)
       case Success(y) =>
         match Interpolate(month)
         case Failure(e) => Failure(e)
         case Success(m) => Success(Request("/inflation/" + y + "/" + m, [])))
  }

  /** The message for a server's answer with an error status. */
  function StatusLine(status: int, detail: string): string {
    "API Error " + IntText(status) + ": " + detail
  }

  /** A status line reads as an answer from the server, never as a request
      that got none. */
  lemma StatusLineIsAnswer(status: int, detail: string)
    ensures StartsWith(StatusLine(status, detail), "API Error ")
    ensures !StartsWith(StatusLine(status, detail), RequestFailedPrefix)
  {
    var line := StatusLine(status, detail);
    assert line[..10] == "API Error ";
    assert line[4] == 'E' != RequestFailedPrefix[4];
  }

  /** Whether an error answer's `error` member, when it is used, converts
      to text; every other failure has a printable message. */
  predicate DetailPrintable(f: HttpFailure) {
    f.ResponseError? ==> !Truthy(Member(f.data, "error")) || Convertible(Member(f.data, "error").value)
  }

  /** The response interceptor's message for a failed request. An error
      answer whose `error` member cannot be converted makes the interceptor
      throw the conversion's `TypeError` instead. */
  function Normalize(f: HttpFailure): (message: string)
    ensures StartsWith(message, RequestFailedPrefix) <==> !f.ResponseError?
    ensures f.ResponseError? ==> StartsWith(message, "API Error ") || message == ConversionError
  {
    match f
    case ResponseError(status, data, statusText) =>
      var detail := Member(data, "error");
      if !Truthy(detail) then StatusLineIsAnswer(status, statusText); StatusLine(status, statusText)
      else
        (match Interpolate(detail)
         case Success(text) => StatusLineIsAnswer(status, text); StatusLine(status, text)
         case Failure(e) => assert e[0] == 'C' != RequestFailedPrefix[0]; e)
    case NoResponse => NoResponseMessage
    case SetupError(message) => RequestFailedPrefix + message
  }

  /** Sending a request: the response body unchanged, or the normalised error. */
  function Execute(send: Transport, req: Request): (r: Result<Value, string>)
    ensures send(req).Ok? ==> r == Success(send(req).body)
    ensures send(req).Failed? ==> r == Failure(Normalize(send(req).failure))
  {
    match send(req)
    case Ok(body) => Success(body)
    case Failed(f) => Failure(Normalize(f))
  }

  /** A client method end to end: its local check, then the request. */
  function Perform(send: Transport, call: ApiCall): (r: Result<Value, string>)
    ensures r.Success? <==> Build(call).Success? && send(Build(call).value).Ok?
    ensures r.Success? ==> r.value == send(Build(call).value).body
    ensures Build(call).Failure? ==> r.error == Build(call).error
  {
    match Build(call)
    case Failure(e) => Failure(e)
    case Success(req) => Execute(send, req)
  }

  /** `healthCheck`: whether the probe request succeeds; it never throws. */
  function HealthCheck(send: Transport): (healthy: bool)
    ensures healthy <==> Execute(send, HealthProbe).Success?
  {
    send(HealthProbe).Ok?
  }

  /** When no code contains a comma, the `codes` parameter splits back into
      the codes, in the given order. */
  lemma CompareCodesRecoverable(codes: seq<string>)
    requires 2 <= |codes| <= 5
    requires forall k, i :: 0 <= k < |codes| && 0 <= i < |codes[k]| ==> codes[k][i] != ','
    ensures CompareFundsRequest(codes).Success?
    ensures Split(CompareFundsRequest(codes).value.query[0].1.value.s, ',') == codes
  {
    SplitJoin(codes, ',');
  }

  /** The analysis query never carries `code`, keeps every other parameter
      under its own name, and its two dotted keys agree with the nested
      object: both `undefined` when it is absent. */
  lemma AnalysisQueryFlattens(p: FundAnalysisParams)
    ensures Lookup(AnalysisQuery(p), "code") == None
    ensures Lookup(AnalysisQuery(p), "startDate") == Some(Str(p.startDate.Text()))
    ensures Lookup(AnalysisQuery(p), "initialInvestment") == Some(Num(p.initialInvestment))
    ensures Lookup(AnalysisQuery(p), "monthlyInvestment") == NumberOf(p.monthlyInvestment)
    ensures Lookup(AnalysisQuery(p), "includeMonthlyDetails") == BooleanOf(p.includeMonthlyDetails)
    ensures Lookup(AnalysisQuery(p), "yearlyIncrease").Some? <==> p.yearlyIncrease.Some?
    ensures Lookup(AnalysisQuery(p), "yearlyIncrease.type") == Member(Lookup(AnalysisQuery(p), "yearlyIncrease"), "type")
    ensures Lookup(AnalysisQuery(p), "yearlyIncrease.value") == Member(Lookup(AnalysisQuery(p), "yearlyIncrease"), "value")
    ensures p.yearlyIncrease.Some? ==>
              Lookup(AnalysisQuery(p), "yearlyIncrease.type") == Some(Str(p.yearlyIncrease.value.kind.Text()))
              && Lookup(AnalysisQuery(p), "yearlyIncrease.value") == Some(Num(p.yearlyIncrease.value.value))
    ensures p.yearlyIncrease.None? ==>
              Lookup(AnalysisQuery(p), "yearlyIncrease.type") == None
              && Lookup(AnalysisQuery(p), "yearlyIncrease.value") == None
  {
    var q := AnalysisQuery(p);
    LookupMissing(q, "code");
    LookupAt(q, 0);
    LookupAt(q, 1);
    LookupAt(q, 2);
    LookupAt(q, 3);
    LookupAt(q, 4);
    LookupAt(q, 5);
    LookupAt(q, 6);
  }

  /** Whatever value is given, `funds` is sent, unchanged and alone, exactly
      when the value is truthy: a non-empty string, a non-zero number,
      `true`, or any array or object (an empty array included); `undefined`,
      `null`, `false`, `0` and `""` send no parameter. */
  lemma ReferenceFundsSentWhenTruthy(v: JsValue, s: string)
    ensures Build(GetTopPerformingFunds(v)).Success?
    ensures Build(GetTopPerformingFunds(v)).value.path == "/funds/top-performing"
    ensures Lookup(Build(GetTopPerformingFunds(v)).value.query, "funds").Some? <==> Truthy(v)
    ensures Truthy(v) ==> Build(GetTopPerformingFunds(v)).value.query == [("funds", v)]
    ensures !Truthy(v) ==> Build(GetTopPerformingFunds(v)).value.query == []
    ensures Build(GetTopPerformingFunds(Some(Str(s)))).value.query == [] <==> s == ""
    ensures Build(GetTopPerformingFunds(Some(Arr([])))).value.query == [("funds", Some(Arr([])))]
    ensures Build(GetTopPerformingFunds(Some(Num(0.0)))).value.query == []
  {
  }

  /** `include_funds` is always sent, and is `false` only when asked for. */
  lemma IncludeFundsDefaultsToTrue(code: string, includeFunds: Option<bool>)
    ensures Lookup(Build(GetCompanyDetails(code, includeFunds)).value.query, "include_funds")
            == Some(Bool(includeFunds != Some(false)))
  {
  }

  /** The path-argument endpoints put their argument in a segment of its
      own: when it has no slash, the path splits at `/` into the fixed
      segments and the argument. */
  lemma HistoricalDataPath(code: string, p: HistoricalDataParams)
    requires forall i :: 0 <= i < |code| ==> code[i] != '/'
    ensures Split(Build(GetFundHistoricalData(code, p)).value.path, '/') == ["", "funds", code, "historical"]
  {
    assert "/funds/" + code + "/historical" == "/" + "funds" + "/" + code + "/" + "historical";
    ThreeSegments("funds", code, "historical");
  }

  lemma AnalyzeFundPath(p: FundAnalysisParams)
    requires forall i :: 0 <= i < |p.code| ==> p.code[i] != '/'
    ensures Split(Build(AnalyzeFund(p)).value.path, '/') == ["", "funds", p.code, "analyze"]
  {
    assert "/funds/" + p.code + "/analyze" == "/" + "funds" + "/" + p.code + "/" + "analyze";
    ThreeSegments("funds", p.code, "analyze");
  }

  lemma CompanyDetailsPath(code: string, includeFunds: Option<bool>)
    requires forall i :: 0 <= i < |code| ==> code[i] != '/'
    ensures Split(Build(GetCompanyDetails(code, includeFunds)).value.path, '/') == ["", "companies", code]
  {
    assert "/companies/" + code == "/" + "companies" + "/" + code;
    TwoSegments("companies", code);
  }

  /** A raw date or fund type of any JSON kind is printed into its own
      segment, as long as its text form exists and has no slash. */
  lemma StatisticsByDatePath(date: Value)
    requires Convertible(date)
    requires forall i :: 0 <= i < |ValueText(date)| ==> ValueText(date)[i] != '/'
    ensures Build(GetStatisticsByDate(Some(date))).Success?
    ensures Split(Build(GetStatisticsByDate(Some(date))).value.path, '/') == ["", "statistics", ValueText(date)]
  {
    var d := ValueText(date);
    assert Interpolate(Some(date)) == Success(d);
    assert "/statistics/" + d == "/" + "statistics" + "/" + d;
    TwoSegments("statistics", d);
  }

  lemma FundTypeDetailsPath(t: Value)
    requires Convertible(t)
    requires forall i :: 0 <= i < |ValueText(t)| ==> ValueText(t)[i] != '/'
    ensures Build(GetFundTypeDetails(Some(t))).Success?
    ensures Split(Build(GetFundTypeDetails(Some(t))).value.path, '/') == ["", "fund-types", ValueText(t)]
  {
    var d := ValueText(t);
    assert Interpolate(Some(t)) == Success(d);
    assert "/fund-types/" + d == "/" + "fund-types" + "/" + d;
    TwoSegments("fund-types", d);
  }

  lemma TwoSegments(a: string, b: string)
    requires forall i :: 0 <= i < |a| ==> a[i] != '/'
    requires forall i :: 0 <= i < |b| ==> b[i] != '/'
    ensures Split("/" + a + "/" + b, '/') == ["", a, b]
  {
    var tail := a + ['/'] + b;
    SplitWithoutSeparator(b, '/');
    SplitAtSeparator(a, '/', b);
    assert Split(tail, '/') == [a, b];
    SplitAtSeparator([], '/', tail);
    assert "/" + a + "/" + b == [] + ['/'] + tail;
  }

  lemma ThreeSegments(a: string, b: string, c: string)
    requires forall i :: 0 <= i < |a| ==> a[i] != '/'
    requires forall i :: 0 <= i < |b| ==> b[i] != '/'
    requires forall i :: 0 <= i < |c| ==> c[i] != '/'
    ensures Split("/" + a + "/" + b + "/" + c, '/') == ["", a, b, c]
  {
    var inner := b + ['/'] + c;
    var tail := a + ['/'] + inner;
    SplitWithoutSeparator(c, '/');
    SplitAtSeparator(b, '/', c);
    assert Split(inner, '/') == [b, c];
    SplitAtSeparator(a, '/', inner);
    assert Split(tail, '/') == [a, b, c];
    SplitAtSeparator([], '/', tail);
    SlashesRegroup(a, b, c);
  }

  lemma SlashesRegroup(a: string, b: string, c: string)
    ensures "/" + a + "/" + b + "/" + c == [] + ['/'] + (a + ['/'] + (b + ['/'] + c))
  {
    var inner := b + ['/'] + c;
    assert "/" + a + "/" + b + "/" + c == ['/'] + a + ['/'] + (b + ['/'] + c);
    assert ['/'] + a + ['/'] + inner == [] + ['/'] + (a + ['/'] + inner);
  }

  /** A month given as whole numbers is addressed as `/inflation/<year>/<month>`. */
  lemma InflationMonthPath(year: nat, month: nat)
    ensures Split(Build(GetInflationRateByMonth(Some(Num(year as real)), Some(Num(month as real)))).value.path, '/')
            == ["", "inflation", NatText(year), NatText(month)]
  {
    NumberTextOfInteger(year);
    NumberTextOfInteger(month);
    var y := NatText(year);
    var m := NatText(month);
    forall i | 0 <= i < |y| ensures y[i] != '/' {
      assert IsDigit(y[i]);
    }
    forall i | 0 <= i < |m| ensures m[i] != '/' {
      assert IsDigit(m[i]);
    }
    assert "/inflation/" + y + "/" + m == "/" + "inflation" + "/" + y + "/" + m;
    ThreeSegments("inflation", y, m);
  }

  /** A response error carries its status and, when the body names a
      non-empty `error`, that text; otherwise the status text. */
  lemma ResponseErrorMessage(status: int, error: string, fields: map<string, Value>, statusText: string)
    ensures error != "" ==>
              Normalize(ResponseError(status, Some(Obj(fields["error" := Str(error)])), statusText))
              == "API Error " + IntText(status) + ": " + error
    ensures "error" !in fields ==>
              Normalize(ResponseError(status, Some(Obj(fields)), statusText))
              == "API Error " + IntText(status) + ": " + statusText
    ensures Normalize(ResponseError(status, Some(Obj(fields["error" := Str("")])), statusText))
            == "API Error " + IntText(status) + ": " + statusText
    ensures Normalize(ResponseError(status, None, statusText)) == "API Error " + IntText(status) + ": " + statusText
  {
  }

  /** A request that got no answer reads `API request failed: No response
      received`; one that could not be sent carries its own message after
      the same prefix. */
  lemma RequestFailureMessages(message: string)
    ensures Normalize(NoResponse) == "API request failed: No response received"
    ensures Normalize(SetupError(message)) == "API request failed: " + message
  {
  }

  /** Only a server's answer gives a message that starts `API Error `, and
      it does unless its `error` member cannot be printed, which surfaces as
      the conversion's `TypeError`. */
  lemma ResponseErrorPrefix(f: HttpFailure)
    ensures StartsWith(Normalize(f), "API Error ") <==> f.ResponseError? && DetailPrintable(f)
    ensures !DetailPrintable(f) ==> Normalize(f) == ConversionError
  {
    var m := Normalize(f);
    if f.ResponseError? && DetailPrintable(f) {
      assert m[..10] == "API Error ";
    } else if f.ResponseError? {
      assert m[0] == 'C';
    } else {
      assert m[..20] == "API request failed: ";
      assert m[4] == 'r';
    }
  }

  /** An error answer whose `error` is an object with its own `toString`
      replaces the status line with the `TypeError` message. */
  lemma UnprintableDetailThrows(status: int, fields: map<string, Value>, statusText: string)
    ensures Normalize(ResponseError(status, Some(Obj(map["error" := Obj(fields["toString" := Null])])), statusText))
            == ConversionError
  {
  }

  /** The status of a server's answer can be read back from its message. */
  lemma StatusLineRecoverable(s1: nat, d1: string, s2: nat, d2: string)
    requires StatusLine(s1, d1) == StatusLine(s2, d2)
    ensures s1 == s2
  {
    var a := NatText(s1);
    var b := NatText(s2);
    assert IntText(s1) == a && IntText(s2) == b;
    assert StatusLine(s1, d1) == "API Error " + (a + ":" + (" " + d1));
    assert StatusLine(s2, d2) == "API Error " + (b + ":" + (" " + d2));
    assert StatusLine(s1, d1)[10..] == a + ":" + (" " + d1);
    assert StatusLine(s2, d2)[10..] == b + ":" + (" " + d2);
    DigitRunDetermined(a, " " + d1, b, " " + d2);
    NatTextInjective(s1, s2);
  }

  lemma ResponseStatusRecoverable(f: HttpFailure, g: HttpFailure)
    requires f.ResponseError? && g.ResponseError? && f.status >= 0 && g.status >= 0
    requires Normalize(f) == Normalize(g)
    ensures DetailPrintable(f) <==> DetailPrintable(g)
    ensures DetailPrintable(f) ==> f.status == g.status
  {
    ResponseErrorPrefix(f);
    ResponseErrorPrefix(g);
    if DetailPrintable(f) && DetailPrintable(g) {
      var df := Member(f.data, "error");
      var dg := Member(g.data, "error");
      var tf := if Truthy(df) then Interpolate(df).value else f.statusText;
      var tg := if Truthy(dg) then Interpolate(dg).value else g.statusText;
      assert Normalize(f) == StatusLine(f.status, tf);
      assert Normalize(g) == StatusLine(g.status, tg);
      StatusLineRecoverable(f.status, tf, g.status, tg);
    }
  }

  /** A message from a server's answer never reads like one for a request
      that got no answer or could not be sent, and, when its detail prints,
      names the status it came with. */
  lemma NormalizedFailuresDistinguishable(f: HttpFailure, g: HttpFailure)
    requires Normalize(f) == Normalize(g)
    ensures f.ResponseError? <==> g.ResponseError?
    ensures f.ResponseError? && f.status >= 0 && g.status >= 0 && DetailPrintable(f) ==> f.status == g.status
  {
    ResponseErrorPrefix(f);
    ResponseErrorPrefix(g);
    var m := Normalize(f);
    if !f.ResponseError? {
      assert m[0] == 'A';
    }
    if !g.ResponseError? {
      assert Normalize(g)[0] == 'A';
    }
    if f.ResponseError? && g.ResponseError? && f.status >= 0 && g.status >= 0 {
      ResponseStatusRecoverable(f, g);
    }
  }

  /** The one collision: a request that could not be sent with the message
      `No response received` reads exactly like one that got no answer. */
  lemma NoResponseLookalike()
    ensures Normalize(SetupError("No response received")) == Normalize(NoResponse)
  {
    assert "API request failed: " + "No response received" == NoResponseMessage;
  }

  /** Every error a client method throws starts with `A` (a normalised HTTP
      failure), `2` (the local count check of `compareFunds`) or `C` (a path
      argument or error detail without a text form). */
  lemma ClientErrorOrigins(send: Transport, call: ApiCall)
    ensures Perform(send, call).Failure? ==>
              |Perform(send, call).error| > 0
              && Perform(send, call).error[0] in ['A', '2', 'C']
  {
    match Build(call)
    case Failure(e) =>
      assert e == CompareCountError || e == ConversionError;
    case Success(req) =>
      if send(req).Failed? {
        NormalizedFirstLetter(send(req).failure);
      }
  }

  lemma NormalizedFirstLetter(f: HttpFailure)
    ensures |Normalize(f)| > 0 && Normalize(f)[0] in ['A', 'C']
  {
    var m := Normalize(f);
    if m == ConversionError {
      assert m[0] == 'C';
    } else if f.ResponseError? {
      assert m[..10] == "API Error ";
      assert m[0] == 'A';
    } else {
      assert m[..|RequestFailedPrefix|] == RequestFailedPrefix;
      assert m[0] == 'A';
    }
  }

  /** A path argument is interpolated: the request is built exactly when it
      has a text form, and otherwise the `TypeError` is thrown before any
      request exists. */
  lemma PathArgumentsConvert(v: JsValue, w: JsValue)
    ensures Build(GetStatisticsByDate(v)).Failure? <==> v.Some? && !Convertible(v.value)
    ensures Build(GetFundTypeDetails(v)).Failure? <==> v.Some? && !Convertible(v.value)
    ensures Build(GetInflationRateByMonth(v, w)).Failure?
            <==> (v.Some? && !Convertible(v.value)) || (w.Some? && !Convertible(w.value))
    ensures Build(GetStatisticsByDate(v)).Failure? ==> Build(GetStatisticsByDate(v)).error == ConversionError
    ensures Build(GetFundTypeDetails(v)).Failure? ==> Build(GetFundTypeDetails(v)).error == ConversionError
    ensures Build(GetInflationRateByMonth(v, w)).Failure? ==> Build(GetInflationRateByMonth(v, w)).error == ConversionError
  {
  }

  /** A client method throws before sending exactly when its local check
      fails. */
  lemma LocalRejection(call: ApiCall)
    ensures Build(call).Failure? <==> LocallyRejected(call)
  {
    match call
    case GetStatisticsByDate(v) => PathArgumentsConvert(v, None);
    case GetFundTypeDetails(v) => PathArgumentsConvert(v, None);
    case GetInflationRateByMonth(year, month) => PathArgumentsConvert(year, month);
    case _ =>
  }
}

=== FILE: catalog.dfy ===
/** The tool catalog the host lists: fifteen tools, each with the JSON
    Schema of its input object. Human-readable descriptions are omitted;
    names, types, bounds, enumerations and required lists are kept. */
module Catalog {
  import opened Wrappers
  import opened Json
  import opened Schema
  import Types

  /** The JSON Schema `type` keyword of a property. */
  datatype JsonType = NumberType | StringType | BooleanType | ArrayType

  /** The JSON Schema keywords of one advertised property. */
  datatype Property = Property(
    name: string,
    jsonType: JsonType,
    minimum: Option<real>,
    maximum: Option<real>,
    enumValues: Option<seq<string>>,
    itemType: Option<JsonType>,
    minItems: Option<nat>,
    maxItems: Option<nat>)

  /** One catalog entry: a tool name and its object input schema. */
  datatype Tool = Tool(name: string, properties: seq<Property>, required: seq<string>)

  function NumberProperty(name: string, minimum: Option<real>, maximum: Option<real>): Property {
    Property(name, NumberType, minimum, maximum, None, None, None, None)
  }

  function StringProperty(name: string): Property {
    Property(name, StringType, None, None, None, None, None, None)
  }

  function BooleanProperty(name: string): Property {
    Property(name, BooleanType, None, None, None, None, None, None)
  }

  function EnumProperty(name: string, values: seq<string>): Property {
    Property(name, StringType, None, None, Some(values), None, None, None)
  }

  function StringArrayProperty(name: string, minItems: nat, maxItems: nat): Property {
    Property(name, ArrayType, None, None, None, Some(StringType), Some(minItems), Some(maxItems))
  }

  const SortDirectionValues: seq<string> := ["ASC", "DESC"]

  const ListFundsTool: Tool :=
    Tool("list_funds", [
      NumberProperty("page", Some(1.0), None),
      NumberProperty("limit", Some(1.0), Some(100.0)),
      EnumProperty("type", Types.FundTypeTexts()),
      StringProperty("search"),
      StringProperty("code"),
      StringProperty("management_company"),
      BooleanProperty("tefas"),
      NumberProperty("min_risk_value", Some(1.0), Some(7.0)),
      NumberProperty("max_risk_value", Some(1.0), Some(7.0)),
      StringProperty("sort"),
      EnumProperty("order", SortDirectionValues)
    ], [])

  const TopPerformingFundsTool: Tool :=
    Tool("top_performing_funds", [
      StringProperty("reference_funds")
    ], [])

  const CompareFundsTool: Tool :=
    Tool("compare_funds", [
      StringArrayProperty("codes", 2, 5)
    ], ["codes"])

  const AnalyzeFundTool: Tool :=
    Tool("analyze_fund", [
      StringProperty("code"),
      EnumProperty("startDate", [
        "last_1_day", "last_1_week", "last_1_month", "last_3_months", "last_6_months",
        "year_start", "last_1_year", "last_3_years", "last_5_years"]),
      NumberProperty("initialInvestment", Some(0.0), None),
      NumberProperty("monthlyInvestment", Some(0.0), None),
      EnumProperty("yearlyIncreaseType", ["percentage", "amount"]),
      NumberProperty("yearlyIncreaseValue", Some(0.0), None),
      BooleanProperty("includeMonthlyDetails")
    ], ["code", "startDate", "initialInvestment"])

  const FundHistoricalDataTool: Tool :=
    Tool("fund_historical_data", [
      StringProperty("code"),
      StringProperty("start_date"),
      StringProperty("end_date"),
      EnumProperty("interval", ["daily", "weekly", "monthly"]),
      StringProperty("sort"),
      EnumProperty("order", SortDirectionValues)
    ], ["code"])

  const ListCompaniesTool: Tool :=
    Tool("list_companies", [
      NumberProperty("page", Some(1.0), None),
      NumberProperty("limit", Some(1.0), Some(100.0)),
      StringProperty("sort"),
      EnumProperty("order", SortDirectionValues),
      NumberProperty("min_total_funds", Some(0.0), None),
      NumberProperty("max_total_funds", Some(0.0), None),
      StringProperty("search")
    ], [])

  const CompanyDetailsTool: Tool :=
    Tool("company_details", [
      StringProperty("code"),
      BooleanProperty("include_funds")
    ], ["code"])

  const StatisticsTool: Tool :=
    Tool("statistics", [
      StringProperty("start_date"),
      StringProperty("end_date"),
      StringProperty("sort"),
      EnumProperty("order", SortDirectionValues),
      NumberProperty("page", Some(1.0), None),
      NumberProperty("limit", Some(1.0), Some(100.0))
    ], [])

  const LatestStatisticsTool: Tool :=
    Tool("latest_statistics", [], [])

  const StatisticsByDateTool: Tool :=
    Tool("statistics_by_date", [
      StringProperty("date")
    ], ["date"])

  const ListFundTypesTool: Tool :=
    Tool("list_fund_types", [
      StringProperty("sort"),
      EnumProperty("order", SortDirectionValues),
      NumberProperty("min_total_funds", Some(0.0), None),
      NumberProperty("max_total_funds", Some(0.0), None)
    ], [])

  const FundTypeDetailsTool: Tool :=
    Tool("fund_type_details", [
      EnumProperty("type", Types.FundTypeTexts())
    ], ["type"])

  const InflationRatesTool: Tool :=
    Tool("inflation_rates", [
      StringProperty("start_date"),
      StringProperty("end_date")
    ], [])

  const LatestInflationRateTool: Tool :=
    Tool("latest_inflation_rate", [], [])

  const InflationRateByMonthTool: Tool :=
    Tool("inflation_rate_by_month", [
      NumberProperty("year", Some(2000.0), None),
      NumberProperty("month", Some(1.0), Some(12.0))
    ], ["year", "month"])

  /** The catalog, in the order the host lists it. */
  const Tools: seq<Tool> := [
    ListFundsTool, TopPerformingFundsTool, CompareFundsTool,
    AnalyzeFundTool, FundHistoricalDataTool, ListCompaniesTool,
    CompanyDetailsTool, StatisticsTool, LatestStatisticsTool,
    StatisticsByDateTool, ListFundTypesTool, FundTypeDetailsTool,
    InflationRatesTool, LatestInflationRateTool, InflationRateByMonthTool
  ]

  function ToolName(t: Tool): string {
    t.name
  }

  function ToolNames(): seq<string> {
    Types.TextsOf(Tools, ToolName)
  }

  /** The catalog entry of a tool name, if the catalog lists it. */
  function Find(name: string): (r: Option<Tool>)
    ensures r.Some? <==> name in ToolNames()
    ensures r.Some? ==> r.value in Tools && r.value.name == name
  {
    Types.FindByText(Tools, ToolName, name)
  }

  /** The advertised form of a validated field. */
  function Describe(f: Field): Property {
    match f.fieldType
    case NumberField(lo, hi) => NumberProperty(f.name, lo, hi)
    case StringField => StringProperty(f.name)
    case BooleanField => BooleanProperty(f.name)
    case EnumField(options, _) => EnumProperty(f.name, options)
    case StringArrayField(lo, hi) => StringArrayProperty(f.name, lo, hi)
  }

  /** The names of the required fields from index `from` on, in declaration order. */
  function RequiredNames(schema: ObjectSchema, from: nat): (r: seq<string>)
    requires from <= |schema|
    ensures forall n :: n in r <==> exists j :: from <= j < |schema| && schema[j].required && schema[j].name == n
    decreases |schema| - from
  {
    if from == |schema| then []
    else (if schema[from].required then [schema[from].name] else []) + RequiredNames(schema, from + 1)
  }

  /** The catalog entry a validator's schema calls for. */
  function DescribeSchema(name: string, schema: ObjectSchema): (t: Tool)
    ensures |t.properties| == |schema|
  {
    Tool(name, seq(|schema|, i requires 0 <= i < |schema| => Describe(schema[i])), RequiredNames(schema, 0))
  }

  /** JSON Schema's reading of one property keyword set on a present value:
      the bound and length keywords only constrain values of their own type. */
  predicate PropertyHolds(p: Property, v: Value) {
    && HasType(p.jsonType, v)
    && (p.minimum.Some? && v.Num? ==> p.minimum.value <= v.n)
    && (p.maximum.Some? && v.Num? ==> v.n <= p.maximum.value)
    && (p.enumValues.Some? ==> exists i :: 0 <= i < |p.enumValues.value| && v == Str(p.enumValues.value[i]))
    && (p.itemType.Some? && v.Arr? ==> forall i :: 0 <= i < |v.items| ==> HasType(p.itemType.value, v.items[i]))
    && (p.minItems.Some? && v.Arr? ==> p.minItems.value <= |v.items|)
    && (p.maxItems.Some? && v.Arr? ==> |v.items| <= p.maxItems.value)
  }

  predicate HasType(t: JsonType, v: Value) {
    match t
    case NumberType => v.Num?
    case StringType => v.Str?
    case BooleanType => v.Bool?
    case ArrayType => v.Arr?
  }

  /** Whether an argument object satisfies a tool's advertised input schema. */
  predicate Satisfies(tool: Tool, args: map<string, Value>) {
    && (forall i :: 0 <= i < |tool.properties| && tool.properties[i].name in args ==>
          PropertyHolds(tool.properties[i], args[tool.properties[i].name]))
    && (forall n :: n in tool.required ==> n in args)
  }

  /** The validator's schema for each catalog tool that has one. */
  function SchemaFor(name: string): Option<ObjectSchema> {
    if name == "list_funds" then Some(ListFundsSchema)
    else if name == "compare_funds" then Some(CompareFundsSchema)
    else if name == "analyze_fund" then Some(AnalyzeFundSchema)
    else if name == "fund_historical_data" then Some(HistoricalDataSchema)
    else if name == "list_companies" then Some(ListCompaniesSchema)
    else if name == "company_details" then Some(CompanyDetailsSchema)
    else if name == "statistics" then Some(StatisticsSchema)
    else if name == "list_fund_types" then Some(FundTypesSchema)
    else if name == "inflation_rates" then Some(InflationSchema)
    else None
  }

  lemma DescribedFieldHolds(f: Field, v: Value)
    ensures Accepts(f.fieldType, v) <==> PropertyHolds(Describe(f), v)
  {
    if f.fieldType.EnumField? && v.Str? && v.s in f.fieldType.options {
      var i :| 0 <= i < |f.fieldType.options| && f.fieldType.options[i] == v.s;
      assert v == Str(f.fieldType.options[i]);
    }
  }

  /** A validator's schema and its advertised description admit exactly the
      same argument objects. */
  lemma {:induction false} DescribedSchemaAgrees(name: string, schema: ObjectSchema, args: map<string, Value>)
    ensures Conforms(schema, args) <==> Satisfies(DescribeSchema(name, schema), args)
  {
    var t := DescribeSchema(name, schema);
    forall j | 0 <= j < |schema| && schema[j].name in args
      ensures Accepts(schema[j].fieldType, args[schema[j].name]) <==> PropertyHolds(t.properties[j], args[schema[j].name])
    {
      assert t.properties[j] == Describe(schema[j]);
      DescribedFieldHolds(schema[j], args[schema[j].name]);
    }
    if Satisfies(t, args) {
      forall j | 0 <= j < |schema| ensures FieldOk(schema[j], args) {
        if schema[j].required {
          assert schema[j].name in t.required;
        }
      }
    }
  }

  /** The catalog lists fifteen distinct tool names, `company_details` among
      them. */
  lemma CatalogNames()
    ensures ToolNames() == [
      "list_funds", "top_performing_funds", "compare_funds", "analyze_fund",
      "fund_historical_data", "list_companies", "company_details", "statistics",
      "latest_statistics", "statistics_by_date", "list_fund_types", "fund_type_details",
      "inflation_rates", "latest_inflation_rate", "inflation_rate_by_month"]
    ensures forall i, j :: 0 <= i < j < |ToolNames()| ==> ToolNames()[i] != ToolNames()[j]
    ensures "company_details" in ToolNames()
  {
  }

  /** A listed name finds the one entry that carries it. */
  lemma FindListed(name: string, i: nat)
    requires i < |Tools| && Tools[i].name == name
    ensures Find(name) == Some(Tools[i])
  {
    CatalogNames();
    assert ToolNames()[i] == name;
    var t := Find(name).value;
    var k :| 0 <= k < |Tools| && Tools[k] == t;
    assert ToolNames()[k] == name;
  }

  lemma {:induction false} NoneRequired(schema: ObjectSchema, from: nat)
    requires from <= |schema|
    requires forall j :: from <= j < |schema| ==> !schema[j].required
    ensures RequiredNames(schema, from) == []
    decreases |schema| - from
  {
    if from < |schema| {
      NoneRequired(schema, from + 1);
    }
  }

  /** When exactly the first `n` fields are required, their names in order
      are the required list. */
  lemma {:induction false} LeadingRequired(schema: ObjectSchema, n: nat, from: nat)
    requires from <= n <= |schema|
    requires forall j :: from <= j < n ==> schema[j].required
    requires forall j :: n <= j < |schema| ==> !schema[j].required
    ensures RequiredNames(schema, from) == seq(n - from, i requires 0 <= i < n - from => schema[from + i].name)
    decreases n - from
  {
    if from == n {
      NoneRequired(schema, n);
    } else {
      LeadingRequired(schema, n, from + 1);
    }
  }

  /** A catalog entry is the description of `schema`, whose first `n`
      fields are the required ones. */
  lemma EntryDescribes(tool: Tool, schema: ObjectSchema, n: nat)
    requires n <= |schema| == |tool.properties|
    requires forall j :: 0 <= j < |schema| ==> Describe(schema[j]) == tool.properties[j]
    requires forall j :: 0 <= j < |schema| ==> (schema[j].required <==> j < n)
    requires tool.required == seq(n, j requires 0 <= j < n => schema[j].name)
    ensures DescribeSchema(tool.name, schema) == tool
  {
    LeadingRequired(schema, n, 0);
    assert DescribeSchema(tool.name, schema).properties == tool.properties;
  }

  lemma ListFundsDescribed()
    ensures DescribeSchema("list_funds", ListFundsSchema) == ListFundsTool
  {
    EntryDescribes(ListFundsTool, ListFundsSchema, 0);
  }

  lemma CompareFundsDescribed()
    ensures DescribeSchema("compare_funds", CompareFundsSchema) == CompareFundsTool
  {
    EntryDescribes(CompareFundsTool, CompareFundsSchema, 1);
  }

  lemma AnalyzeFundDescribed()
    ensures DescribeSchema("analyze_fund", AnalyzeFundSchema) == AnalyzeFundTool
  {
    EntryDescribes(AnalyzeFundTool, AnalyzeFundSchema, 3);
  }

  lemma HistoricalDataDescribed()
    ensures DescribeSchema("fund_historical_data", HistoricalDataSchema) == FundHistoricalDataTool
  {
    EntryDescribes(FundHistoricalDataTool, HistoricalDataSchema, 1);
  }

  lemma ListCompaniesDescribed()
    ensures DescribeSchema("list_companies", ListCompaniesSchema) == ListCompaniesTool
  {
    EntryDescribes(ListCompaniesTool, ListCompaniesSchema, 0);
  }

  lemma CompanyDetailsDescribed()
    ensures DescribeSchema("company_details", CompanyDetailsSchema) == CompanyDetailsTool
  {
    EntryDescribes(CompanyDetailsTool, CompanyDetailsSchema, 1);
  }

  lemma StatisticsDescribed()
    ensures DescribeSchema("statistics", StatisticsSchema) == StatisticsTool
  {
    EntryDescribes(StatisticsTool, StatisticsSchema, 0);
  }

  lemma FundTypesDescribed()
    ensures DescribeSchema("list_fund_types", FundTypesSchema) == ListFundTypesTool
  {
    EntryDescribes(ListFundTypesTool, FundTypesSchema, 0);
  }

  lemma InflationDescribed()
    ensures DescribeSchema("inflation_rates", InflationSchema) == InflationRatesTool
  {
    EntryDescribes(InflationRatesTool, InflationSchema, 0);
  }

  /** Each validator's schema is exactly what the catalog advertises for its tool. */
  lemma CatalogAdvertisesSchemas(name: string)
    requires SchemaFor(name).Some?
    ensures Find(name) == Some(DescribeSchema(name, SchemaFor(name).value))
  {
    if name == "list_funds" {
      assert Tools[0] == ListFundsTool;
      FindListed(name, 0);
      ListFundsDescribed();
    } else if name == "compare_funds" {
      assert Tools[2] == CompareFundsTool;
      FindListed(name, 2);
      CompareFundsDescribed();
    } else if name == "analyze_fund" {
      assert Tools[3] == AnalyzeFundTool;
      FindListed(name, 3);
      AnalyzeFundDescribed();
    } else if name == "fund_historical_data" {
      assert Tools[4] == FundHistoricalDataTool;
      FindListed(name, 4);
      HistoricalDataDescribed();
    } else if name == "list_companies" {
      assert Tools[5] == ListCompaniesTool;
      FindListed(name, 5);
      ListCompaniesDescribed();
    } else if name == "company_details" {
      assert Tools[6] == CompanyDetailsTool;
      FindListed(name, 6);
      CompanyDetailsDescribed();
    } else if name == "statistics" {
      assert Tools[7] == StatisticsTool;
      FindListed(name, 7);
      StatisticsDescribed();
    } else if name == "list_fund_types" {
      assert Tools[10] == ListFundTypesTool;
      FindListed(name, 10);
      FundTypesDescribed();
    } else {
      assert Tools[12] == InflationRatesTool;
      FindListed(name, 12);
      InflationDescribed();
    }
  }
}

=== FILE: json.dfy ===
/** The untyped values that reach the bridge: tool arguments decoded from
    the host's JSON message, and the JSON bodies of the remote service. */
module Json {
  import opened Wrappers
  import opened Text

  /** A JSON value. JSON has no `undefined`: a property that is not there
      is a key missing from its object. */
  datatype Value =
    | Null
    | Bool(b: bool)
    | Num(n: real)
    | Str(s: string)
    | Arr(items: seq<Value>)
    | Obj(fields: map<string, Value>)

  /** A JavaScript value that may be `undefined` (`None`). */
  type JsValue = Option<Value>

  /** The own properties of a JavaScript object in insertion order, with
      their values; a value may be `undefined` while its key is present. */
  type Entries = seq<(string, JsValue)>

  /** Property access on an object given by its entries: the value of the
      first entry named `key`, `undefined` when there is none. */
  function Lookup(entries: Entries, key: string): JsValue {
    if |entries| == 0 then None
    else if entries[0].0 == key then entries[0].1
    else Lookup(entries[1..], key)
  }

  /** The properties of an object whose values are defined, in order: the
      object without its `undefined`-valued keys. */
  function Defined(props: Entries): (r: Entries)
    ensures |r| <= |props|
    ensures forall k :: 0 <= k < |r| ==> r[k].1.Some?
  {
    if |props| == 0 then []
    else (if props[0].1.Some? then [props[0]] else []) + Defined(props[1..])
  }

  /** The value of the first entry with a given key is what a lookup of
      that key finds. */
  lemma {:induction false} LookupAt(entries: Entries, k: nat)
    requires k < |entries|
    requires forall i :: 0 <= i < k ==> entries[i].0 != entries[k].0
    ensures Lookup(entries, entries[k].0) == entries[k].1
  {
    if k > 0 {
      assert entries[1..][k - 1] == entries[k];
      LookupAt(entries[1..], k - 1);
    }
  }

  /** A key that no entry has is `undefined`. */
  lemma {:induction false} LookupMissing(entries: Entries, key: string)
    requires forall i :: 0 <= i < |entries| ==> entries[i].0 != key
    ensures Lookup(entries, key) == None
  {
    if |entries| > 0 {
      LookupMissing(entries[1..], key);
    }
  }

  /** Property access `obj.key` on an object. */
  function Get(obj: map<string, Value>, key: string): JsValue {
    if key in obj then Some(obj[key]) else None
  }

  /** Property access `v?.key`: only an object has named properties. */
  function Member(v: JsValue, key: string): (r: JsValue)
    ensures r.Some? ==> v.Some? && v.value.Obj? && key in v.value.fields
  {
    if v.Some? && v.value.Obj? then Get(v.value.fields, key) else None
  }

  /** JavaScript truthiness: `undefined`, `null`, `false`, `0` and `""` are
      falsy; every other value, empty arrays and objects included, is truthy. */
  predicate Truthy(v: JsValue) {
    match v
    case None => false
    case Some(Null) => false
    case Some(Bool(b)) => b
    case Some(Num(n)) => n != 0.0
    case Some(Str(s)) => s != ""
    case Some(Arr(_)) => true
    case Some(Obj(_)) => true
  }

  /** The message of the `TypeError` JavaScript throws when a value has no
      primitive form. */
  const ConversionError: string := "Cannot convert object to primitive value"

  /** Whether converting a value to a string succeeds. An object from JSON
      that has its own `toString` key shadows the inherited method with a
      value that cannot be called, and `valueOf` gives the object back, so
      the conversion throws; an array converts its items, so such an object
      anywhere inside it throws too. */
  predicate Convertible(v: Value) {
    match v
    case Obj(fields) => "toString" !in fields
    case Arr(items) => forall i :: 0 <= i < |items| ==> Convertible(items[i])
    case _ => true
  }

  /** `${v}` inside a template literal: the value's text, or the
      `TypeError` of a value without one. */
  function Interpolate(v: JsValue): (r: Result<string, string>)
    ensures r.Failure? <==> v.Some? && !Convertible(v.value)
    ensures r.Failure? ==> r.error == ConversionError
    ensures v.None? ==> r == Success("undefined")
    ensures v.Some? && v.value.Str? ==> r == Success(v.value.s)
  {
    match v
    case None => Success("undefined")
    case Some(x) => if Convertible(x) then Success(ValueText(x)) else Failure(ConversionError)
  }

  /** What template literals print for a few values: `undefined`, plain
      objects, an object whose only override is `valueOf`, and arrays of
      arrays; an object with its own `toString` throws even deep inside an
      array. */
  lemma InterpolateExamples()
    ensures Interpolate(None) == Success("undefined")
    ensures Interpolate(Some(Obj(map[]))) == Success("[object Object]")
    ensures Interpolate(Some(Obj(map["valueOf" := Str("x")]))) == Success("[object Object]")
    ensures Interpolate(Some(Arr([Num(1.0), Null, Arr([Bool(true), Str("a")])]))) == Success("1,,true,a")
    ensures Interpolate(Some(Obj(map["toString" := Str("x")]))) == Failure(ConversionError)
    ensures Interpolate(Some(Arr([Num(1.0), Arr([Obj(map["toString" := Str("x")])])]))) == Failure(ConversionError)
  {
    var inner := Arr([Bool(true), Str("a")]);
    assert ItemsText(inner, 0) == "true" + ItemsText(inner, 1);
    assert ItemsText(inner, 1) == ",a" + ItemsText(inner, 2);
    var outer := Arr([Num(1.0), Null, inner]);
    NumberTextOfInteger(1);
    assert NumberText(1.0) == "1";
    assert ItemsText(outer, 2) == "," + "true,a" + "";
    assert ItemsText(outer, 0) == "1" + ItemsText(outer, 1);
    assert ItemsText(outer, 1) == "," + "" + ItemsText(outer, 2);
    assert ValueText(outer) == "1,,true,a";
    assert Convertible(inner.items[0]) && Convertible(inner.items[1]);
    assert Convertible(inner);
    assert Convertible(outer.items[0]) && Convertible(outer.items[1]) && Convertible(outer.items[2]);
    var bad := Arr([Obj(map["toString" := Str("x")])]);
    assert !Convertible(bad.items[0]);
    var deep := Arr([Num(1.0), bad]);
    assert !Convertible(deep.items[1]);
  }

  /** `String(v)` for a JSON value. */
  function ValueText(v: Value): string
    decreases v
  {
    match v
    case Null => "null"
    case Bool(b) => if b then "true" else "false"
    case Num(n) => NumberText(n)
    case Str(s) => s
    case Arr(items) => ItemsText(v, 0)
    case Obj(_) => "[object Object]"
  }

  /** `items.join(",")` from index `i` on, where `null` items print empty. */
  function ItemsText(v: Value, i: nat): string
    requires v.Arr? && i <= |v.items|
    decreases v, |v.items| - i
  {
    if i == |v.items| then ""
    else
      var item := if v.items[i].Null? then "" else ValueText(v.items[i]);
      (if i == 0 then "" else ",") + item + ItemsText(v, i + 1)
  }
}

=== FILE: schema.dfy ===
/** The object schemas that validate tool arguments before any request is
    built, with the checks a zod object schema performs: exact type match
    (no coercion), required and optional properties, inclusive numeric
    bounds, enumeration membership and array length. Undeclared properties
    are dropped from the output. Issue messages are left to the caller. */
module Schema {
  import opened Wrappers
  import opened Json
  import Types

  datatype FieldType =
    | NumberField(minimum: Option<real>, maximum: Option<real>)
    | StringField
    | BooleanField
      /** `native` tells a TypeScript enum (which also lets numbers reach the
          membership test) from a literal list of strings. */
    | EnumField(options: seq<string>, native: bool)
    | StringArrayField(minItems: nat, maxItems: nat)

  datatype Field = Field(name: string, fieldType: FieldType, required: bool)

  /** The declared properties of an object schema, in declaration order. */
  type ObjectSchema = seq<Field>

  /** One step of an issue path: a property name or an array index. */
  datatype PathKey = Key(name: string) | Index(index: nat)

  /** The type a validator reports having received. */
  datatype Received =
    | Undefined | NullValue | BooleanValue | NumberValue | StringValue | ArrayValue | ObjectValue

  function ReceivedOf(v: Value): Received {
    match v
    case Null => NullValue
    case Bool(_) => BooleanValue
    case Num(_) => NumberValue
    case Str(_) => StringValue
    case Arr(_) => ArrayValue
    case Obj(_) => ObjectValue
  }

  /** What went wrong with one value; a missing required property is an
      `InvalidType` that received `Undefined`. */
  datatype IssueCode =
    | InvalidType(expected: FieldType, received: Received)
    | InvalidEnumValue(options: seq<string>, value: Value)
    | TooSmall(minimum: real)
    | TooBig(maximum: real)
    | TooFewItems(minItems: nat)
    | TooManyItems(maxItems: nat)

  datatype Issue = Issue(path: seq<PathKey>, code: IssueCode)

  /** The values a field type admits. */
  predicate Accepts(t: FieldType, v: Value) {
    match t
    case NumberField(lo, hi) =>
      v.Num? && (lo.None? || lo.value <= v.n) && (hi.None? || v.n <= hi.value)
    case StringField => v.Str?
    case BooleanField => v.Bool?
    case EnumField(options, _) => v.Str? && v.s in options
    case StringArrayField(lo, hi) =>
      v.Arr? && lo <= |v.items| <= hi && forall i :: 0 <= i < |v.items| ==> v.items[i].Str?
  }

  /** A field is satisfied by an argument object when its value, if any, is
      admitted, and a required field is present. */
  predicate FieldOk(f: Field, args: map<string, Value>) {
    if f.name in args then Accepts(f.fieldType, args[f.name]) else !f.required
  }

  predicate Conforms(schema: ObjectSchema, args: map<string, Value>) {
    forall j :: 0 <= j < |schema| ==> FieldOk(schema[j], args)
  }

  predicate Under(path: seq<PathKey>, prefix: seq<PathKey>) {
    |prefix| <= |path| && path[..|prefix|] == prefix
  }

  /** The issues for the array items from index `from` on that are not strings. */
  function ElementIssues(items: seq<Value>, path: seq<PathKey>, from: nat): (r: seq<Issue>)
    requires from <= |items|
    ensures r == [] <==> forall i :: from <= i < |items| ==> items[i].Str?
    ensures forall k :: 0 <= k < |r| ==> Under(r[k].path, path) && |r[k].path| == |path| + 1
    decreases |items| - from
  {
    if from == |items| then []
    else
      var here := if items[from].Str? then []
                  else [Issue(path + [Index(from)], InvalidType(StringField, ReceivedOf(items[from])))];
      here + ElementIssues(items, path, from + 1)
  }

  /** The issues for one present value, all reported at or below `path`. An
      array's length is checked before its items, and a number's minimum
      before its maximum. */
  function ValueIssues(t: FieldType, v: Value, path: seq<PathKey>): (r: seq<Issue>)
    ensures r == [] <==> Accepts(t, v)
    ensures forall k :: 0 <= k < |r| ==> Under(r[k].path, path)
  {
    match t
    case NumberField(lo, hi) =>
      if !v.Num? then [Issue(path, InvalidType(t, ReceivedOf(v)))]
      else
        (if lo.Some? && v.n < lo.value then [Issue(path, TooSmall(lo.value))] else [])
        + (if hi.Some? && v.n > hi.value then [Issue(path, TooBig(hi.value))] else [])
    case StringField =>
      if v.Str? then [] else [Issue(path, InvalidType(t, ReceivedOf(v)))]
    case BooleanField =>
      if v.Bool? then [] else [Issue(path, InvalidType(t, ReceivedOf(v)))]
    case EnumField(options, native) =>
      if v.Str? && v.s in options then []
      else if v.Str? || (native && v.Num?) then [Issue(path, InvalidEnumValue(options, v))]
      else [Issue(path, InvalidType(t, ReceivedOf(v)))]
    case StringArrayField(lo, hi) =>
      if !v.Arr? then [Issue(path, InvalidType(t, ReceivedOf(v)))]
      else
        (if |v.items| < lo then [Issue(path, TooFewItems(lo))] else [])
        + (if |v.items| > hi then [Issue(path, TooManyItems(hi))] else [])
        + ElementIssues(v.items, path, 0)
  }

  function FieldIssues(f: Field, args: map<string, Value>): (r: seq<Issue>)
    ensures r == [] <==> FieldOk(f, args)
    ensures forall k :: 0 <= k < |r| ==> Under(r[k].path, [Key(f.name)])
  {
    if f.name in args then ValueIssues(f.fieldType, args[f.name], [Key(f.name)])
    else if f.required then [Issue([Key(f.name)], InvalidType(f.fieldType, Undefined))]
    else []
  }

  /** Every issue of an argument object, field by field in declaration
      order; there is none exactly when the object conforms. */
  function Validate(schema: ObjectSchema, args: map<string, Value>): (issues: seq<Issue>)
    ensures issues == [] <==> Conforms(schema, args)
  {
    if |schema| == 0 then []
    else
      assert forall j :: 1 <= j < |schema| ==> schema[j] == schema[1..][j - 1];
      FieldIssues(schema[0], args) + Validate(schema[1..], args)
  }

  /** The declared properties present in `args`, in declaration order, with
      their values: the object a successful parse returns. */
  function Strip(schema: ObjectSchema, args: map<string, Value>): (r: Entries)
    ensures |r| <= |schema|
  {
    if |schema| == 0 then []
    else
      var name := schema[0].name;
      (if name in args then [(name, Some(args[name]))] else []) + Strip(schema[1..], args)
  }

  /** `schema.parse(args)`: the stripped object, or every issue found. */
  function Parse(schema: ObjectSchema, args: map<string, Value>): (r: Result<Entries, seq<Issue>>)
    ensures r.Success? <==> Conforms(schema, args)
    ensures r.Success? ==> r.value == Strip(schema, args)
    ensures r.Failure? ==> |r.error| > 0
  {
    var issues := Validate(schema, args);
    if issues == [] then Success(Strip(schema, args)) else Failure(issues)
  }

  /** Each issue is reported under a declared field that the arguments fail. */
  lemma {:induction false} IssueLocated(schema: ObjectSchema, args: map<string, Value>, k: nat)
    requires k < |Validate(schema, args)|
    ensures exists j :: 0 <= j < |schema| && !FieldOk(schema[j], args)
                        && Under(Validate(schema, args)[k].path, [Key(schema[j].name)])
  {
    var first := FieldIssues(schema[0], args);
    var rest := Validate(schema[1..], args);
    assert Validate(schema, args) == first + rest;
    if k < |first| {
      assert Under(first[k].path, [Key(schema[0].name)]);
    } else {
      IssueLocated(schema[1..], args, k - |first|);
      var j :| 0 <= j < |schema[1..]| && !FieldOk(schema[1..][j], args)
               && Under(rest[k - |first|].path, [Key(schema[1..][j].name)]);
      assert schema[j + 1] == schema[1..][j];
    }
  }

  /** Every declared field that the arguments fail gets at least one issue. */
  lemma {:induction false} FailureReported(schema: ObjectSchema, args: map<string, Value>, j: nat)
    requires j < |schema| && !FieldOk(schema[j], args)
    ensures exists k :: 0 <= k < |Validate(schema, args)|
                        && Under(Validate(schema, args)[k].path, [Key(schema[j].name)])
  {
    var first := FieldIssues(schema[0], args);
    var rest := Validate(schema[1..], args);
    assert Validate(schema, args) == first + rest;
    if j == 0 {
      assert first != [];
      var all: seq<Issue> := first + rest;
      assert Under(all[0].path, [Key(schema[0].name)]);
    } else {
      assert schema[1..][j - 1] == schema[j];
      FailureReported(schema[1..], args, j - 1);
      var k :| 0 <= k < |rest| && Under(rest[k].path, [Key(schema[j].name)]);
      assert (first + rest)[|first| + k] == rest[k];
    }
  }

  /** Every entry of a parse's output is a declared property carrying the
      argument's own value. */
  lemma {:induction false} StripKeepsDeclaredValues(schema: ObjectSchema, args: map<string, Value>, k: nat)
    requires k < |Strip(schema, args)|
    ensures Strip(schema, args)[k].0 in args
    ensures Strip(schema, args)[k].1 == Some(args[Strip(schema, args)[k].0])
    ensures exists j :: 0 <= j < |schema| && schema[j].name == Strip(schema, args)[k].0
  {
    var name := schema[0].name;
    var first: Entries := if name in args then [(name, Some(args[name]))] else [];
    var rest := Strip(schema[1..], args);
    assert Strip(schema, args) == first + rest;
    if k >= |first| {
      StripKeepsDeclaredValues(schema[1..], args, k - |first|);
      var j :| 0 <= j < |schema[1..]| && schema[1..][j].name == rest[k - |first|].0;
      assert schema[j + 1] == schema[1..][j];
    }
  }

  /** Every declared property present in the arguments survives the parse. */
  lemma {:induction false} StripKeepsPresentFields(schema: ObjectSchema, args: map<string, Value>, j: nat)
    requires j < |schema| && schema[j].name in args
    ensures exists k :: 0 <= k < |Strip(schema, args)| && Strip(schema, args)[k].0 == schema[j].name
  {
    var name := schema[0].name;
    var first: Entries := if name in args then [(name, Some(args[name]))] else [];
    var rest := Strip(schema[1..], args);
    assert Strip(schema, args) == first + rest;
    if j == 0 {
      assert (first + rest)[0].0 == name;
    } else {
      assert schema[1..][j - 1] == schema[j];
      StripKeepsPresentFields(schema[1..], args, j - 1);
      var k :| 0 <= k < |rest| && rest[k].0 == schema[j].name;
      assert (first + rest)[|first| + k] == rest[k];
    }
  }

  /** Each declared property with the argument's value for it, `undefined`
      when the argument lacks it. */
  function Declared(schema: ObjectSchema, args: map<string, Value>): (r: Entries)
    ensures |r| == |schema|
  {
    seq(|schema|, j requires 0 <= j < |schema| => (schema[j].name, Get(args, schema[j].name)))
  }

  /** A parse's output is the declared properties with their values, less
      those the arguments lack. */
  lemma {:induction false} StripIsDefinedDeclared(schema: ObjectSchema, args: map<string, Value>)
    ensures Strip(schema, args) == Defined(Declared(schema, args))
  {
    if |schema| > 0 {
      StripIsDefinedDeclared(schema[1..], args);
      assert Declared(schema, args)[1..] == Declared(schema[1..], args);
    }
  }

  /** The parsed object has an entry for every declared property exactly
      when every declared property is given. */
  lemma {:induction false} StripKeepsEveryField(schema: ObjectSchema, args: map<string, Value>)
    ensures |Strip(schema, args)| == |schema| <==> forall j :: 0 <= j < |schema| ==> schema[j].name in args
  {
    if |schema| > 0 {
      StripKeepsEveryField(schema[1..], args);
      assert forall j :: 1 <= j < |schema| ==> schema[j] == schema[1..][j - 1];
    }
  }

  /** A parse's output has no entry for a property the arguments lack. */
  lemma {:induction false} StripOmitsAbsent(schema: ObjectSchema, args: map<string, Value>, key: string)
    requires key !in args
    ensures Lookup(Strip(schema, args), key) == None
  {
    if |schema| > 0 {
      var name := schema[0].name;
      var first: Entries := if name in args then [(name, Some(args[name]))] else [];
      var rest := Strip(schema[1..], args);
      assert Strip(schema, args) == first + rest;
      StripOmitsAbsent(schema[1..], args, key);
      if first != [] {
        assert name != key;
        assert (first + rest)[0].0 == name;
        assert (first + rest)[1..] == rest;
      } else {
        assert first + rest == rest;
      }
    }
  }

  /** A parse's output has no entry for a property the schema does not declare. */
  lemma {:induction false} StripOmitsUndeclared(schema: ObjectSchema, args: map<string, Value>, key: string)
    requires forall j :: 0 <= j < |schema| ==> schema[j].name != key
    ensures Lookup(Strip(schema, args), key) == None
  {
    if |schema| > 0 {
      var name := schema[0].name;
      var first: Entries := if name in args then [(name, Some(args[name]))] else [];
      var rest := Strip(schema[1..], args);
      assert Strip(schema, args) == first + rest;
      assert forall j :: 0 <= j < |schema[1..]| ==> schema[1..][j] == schema[j + 1];
      StripOmitsUndeclared(schema[1..], args, key);
      if first != [] {
        assert (first + rest)[0].0 == name;
        assert (first + rest)[1..] == rest;
      } else {
        assert first + rest == rest;
      }
    }
  }

  /** Reading a declared property back from a parse's output gives the
      argument's own value, or `undefined` when the argument lacks it. */
  lemma {:induction false} ParsedPropertyRead(schema: ObjectSchema, args: map<string, Value>, j: nat)
    requires j < |schema|
    ensures Lookup(Strip(schema, args), schema[j].name) == Get(args, schema[j].name)
  {
    var key := schema[j].name;
    var name := schema[0].name;
    var first: Entries := if name in args then [(name, Some(args[name]))] else [];
    var rest := Strip(schema[1..], args);
    assert Strip(schema, args) == first + rest;
    if first != [] {
      assert (first + rest)[0] == (name, Some(args[name]));
      assert (first + rest)[1..] == rest;
    } else {
      assert first + rest == rest;
    }
    if name == key {
      if key !in args {
        StripOmitsAbsent(schema[1..], args, key);
      }
    } else {
      assert schema[1..][j - 1] == schema[j];
      ParsedPropertyRead(schema[1..], args, j - 1);
    }
  }

  const SortDirections: seq<string> := ["ASC", "DESC"]
  const Intervals: seq<string> := ["daily", "weekly", "monthly"]
  const IncreaseTypes: seq<string> := ["percentage", "amount"]
  const StartDates: seq<string> := [
    "last_1_day", "last_1_week", "last_1_month", "last_3_months", "last_6_months",
    "year_start", "last_1_year", "last_3_years", "last_5_years"
  ]

  const PageField := NumberField(Some(1.0), None)
  const LimitField := NumberField(Some(1.0), Some(100.0))
  const RiskField := NumberField(Some(1.0), Some(7.0))
  const NonNegativeField := NumberField(Some(0.0), None)
  const OrderField := EnumField(SortDirections, false)

  const ListFundsSchema: ObjectSchema := [
    Field("page", PageField, false),
    Field("limit", LimitField, false),
    Field("type", EnumField(Types.FundTypeTexts(), true), false),
    Field("search", StringField, false),
    Field("code", StringField, false),
    Field("management_company", StringField, false),
    Field("tefas", BooleanField, false),
    Field("min_risk_value", RiskField, false),
    Field("max_risk_value", RiskField, false),
    Field("sort", StringField, false),
    Field("order", OrderField, false)
  ]

  const CompareFundsSchema: ObjectSchema := [
    Field("codes", StringArrayField(2, 5), true)
  ]

  const AnalyzeFundSchema: ObjectSchema := [
    Field("code", StringField, true),
    Field("startDate", EnumField(StartDates, false), true),
    Field("initialInvestment", NonNegativeField, true),
    Field("monthlyInvestment", NonNegativeField, false),
    Field("yearlyIncreaseType", EnumField(IncreaseTypes, false), false),
    Field("yearlyIncreaseValue", NonNegativeField, false),
    Field("includeMonthlyDetails", BooleanField, false)
  ]

  const HistoricalDataSchema: ObjectSchema := [
    Field("code", StringField, true),
    Field("start_date", StringField, false),
    Field("end_date", StringField, false),
    Field("interval", EnumField(Intervals, false), false),
    Field("sort", StringField, false),
    Field("order", OrderField, false)
  ]

  const ListCompaniesSchema: ObjectSchema := [
    Field("page", PageField, false),
    Field("limit", LimitField, false),
    Field("sort", StringField, false),
    Field("order", OrderField, false),
    Field("min_total_funds", NonNegativeField, false),
    Field("max_total_funds", NonNegativeField, false),
    Field("search", StringField, false)
  ]

  const CompanyDetailsSchema: ObjectSchema := [
    Field("code", StringField, true),
    Field("include_funds", BooleanField, false)
  ]

  const StatisticsSchema: ObjectSchema := [
    Field("start_date", StringField, false),
    Field("end_date", StringField, false),
    Field("sort", StringField, false),
    Field("order", OrderField, false),
    Field("page", PageField, false),
    Field("limit", LimitField, false)
  ]

  const FundTypesSchema: ObjectSchema := [
    Field("sort", StringField, false),
    Field("order", OrderField, false),
    Field("min_total_funds", NonNegativeField, false),
    Field("max_total_funds", NonNegativeField, false)
  ]

  const InflationSchema: ObjectSchema := [
    Field("start_date", StringField, false),
    Field("end_date", StringField, false)
  ]

  /** The enumerations the schemas list literally are those of the shared
      parameter types. */
  lemma SchemaEnumerationsMatchTypes()
    ensures SortDirections == Types.SortOrderTexts()
    ensures Intervals == Types.IntervalTexts()
    ensures IncreaseTypes == Types.IncreaseTypeTexts()
    ensures StartDates == Types.StartDateTexts()
  {
  }
}

=== FILE: text.dfy ===
/** JavaScript's conversions between numbers and strings, as far as the
    bridge relies on them: `String(n)` for status codes, path indices and
    template-literal interpolation, and `Array.prototype.join`. */
module Text {

  function DigitChar(d: nat): (c: char)
    requires d < 10
    ensures '0' <= c <= '9'
  {
    "0123456789"[d]
  }

  predicate IsDigit(c: char) {
    '0' <= c <= '9'
  }

  /** Decimal rendering of a natural number, most significant digit first. */
  function NatText(n: nat): (s: string)
    ensures |s| > 0
    ensures forall i :: 0 <= i < |s| ==> IsDigit(s[i])
  {
    if n < 10 then [DigitChar(n)] else NatText(n / 10) + [DigitChar(n % 10)]
  }

  /** Reads a digit string back as the number it denotes (reference reading
      of `NatText`). */
  function DigitsValue(s: string): nat
    requires forall i :: 0 <= i < |s| ==> IsDigit(s[i])
  {
    if |s| == 0 then 0
    else
      assert IsDigit(s[|s| - 1]);
      DigitsValue(s[..|s| - 1]) * 10 + (s[|s| - 1] as int - '0' as int)
  }

  /** `String(n)` on an integer: a leading minus sign for negative numbers. */
  function IntText(n: int): (s: string)
    ensures |s| > 0
  {
    if n < 0 then "-" + NatText(-n) else NatText(n)
  }

  /** At most this many fraction digits are produced for a non-integer number. */
  const FractionDigitLimit: nat := 20

  function FractionText(f: real, fuel: nat): (s: string)
    requires 0.0 <= f < 1.0
    ensures |s| <= fuel
    ensures forall i :: 0 <= i < |s| ==> IsDigit(s[i])
    decreases fuel
  {
    if f == 0.0 || fuel == 0 then ""
    else
      var scaled := f * 10.0;
      var d := scaled.Floor;
      [DigitChar(d)] + FractionText(scaled - d as real, fuel - 1)
  }

  function NonNegativeText(x: real): string
    requires x >= 0.0
  {
    var whole := x.Floor;
    var fraction := x - whole as real;
    NatText(whole) + (if fraction == 0.0 then "" else "." + FractionText(fraction, FractionDigitLimit))
  }

  /** `String(x)` for a JavaScript number written in positional notation. */
  function NumberText(x: real): (s: string)
    ensures |s| > 0
  {
    if x < 0.0 then "-" + NonNegativeText(-x) else NonNegativeText(x)
  }

  predicate StartsWith(s: string, prefix: string) {
    |prefix| <= |s| && s[..|prefix|] == prefix
  }

  /** The length of the run of digits that starts a string. */
  function LeadingDigits(s: string): (n: nat)
    ensures n <= |s|
  {
    if |s| == 0 || !IsDigit(s[0]) then 0 else 1 + LeadingDigits(s[1..])
  }

  /** A run of digits ended by a colon is all of the leading digits. */
  lemma {:induction false} DigitRunLength(a: string, x: string)
    requires forall i :: 0 <= i < |a| ==> IsDigit(a[i])
    ensures LeadingDigits(a + ":" + x) == |a|
  {
    if |a| > 0 {
      assert (a + ":" + x)[1..] == a[1..] + ":" + x;
      DigitRunLength(a[1..], x);
    }
  }

  /** So a run of digits ended by a colon is determined by the string it heads. */
  lemma DigitRunDetermined(a: string, x: string, b: string, y: string)
    requires forall i :: 0 <= i < |a| ==> IsDigit(a[i])
    requires forall i :: 0 <= i < |b| ==> IsDigit(b[i])
    requires a + ":" + x == b + ":" + y
    ensures a == b
  {
    DigitRunLength(a, x);
    DigitRunLength(b, y);
    assert (a + ":" + x)[..|a|] == a;
    assert (b + ":" + y)[..|b|] == b;
  }

  /** `parts.join(sep)`. */
  function Join(parts: seq<string>, sep: string): string {
    if |parts| == 0 then ""
    else if |parts| == 1 then parts[0]
    else parts[0] + sep + Join(parts[1..], sep)
  }

  /** `s.split(sep)` for a one-character separator; the reference inverse
      of `Join`. */
  function Split(s: string, sep: char): (parts: seq<string>)
    ensures |parts| > 0
  {
    if |s| == 0 then [""]
    else
      var rest := Split(s[1..], sep);
      if s[0] == sep then [""] + rest else [[s[0]] + rest[0]] + rest[1..]
  }

  lemma {:induction false} NatTextRoundTrip(n: nat)
    ensures DigitsValue(NatText(n)) == n
  {
    if n >= 10 {
      var s := NatText(n);
      assert s[..|s| - 1] == NatText(n / 10);
      NatTextRoundTrip(n / 10);
    }
  }

  /** Distinct numbers never share a decimal rendering. */
  lemma NatTextInjective(m: nat, n: nat)
    requires NatText(m) == NatText(n)
    ensures m == n
  {
    NatTextRoundTrip(m);
    NatTextRoundTrip(n);
  }

  /** An integer-valued number prints exactly as the integer does. */
  lemma NumberTextOfInteger(k: int)
    ensures NumberText(k as real) == IntText(k)
  {
    if k < 0 {
      assert (-(k as real)).Floor == -k;
    } else {
      assert (k as real).Floor == k;
    }
  }

  lemma {:induction false} SplitWithoutSeparator(a: string, sep: char)
    requires forall i :: 0 <= i < |a| ==> a[i] != sep
    ensures Split(a, sep) == [a]
  {
    if |a| > 0 {
      SplitWithoutSeparator(a[1..], sep);
      assert [a[0]] + a[1..] == a;
    }
  }

  lemma {:induction false} SplitAtSeparator(a: string, sep: char, b: string)
    requires forall i :: 0 <= i < |a| ==> a[i] != sep
    ensures Split(a + [sep] + b, sep) == [a] + Split(b, sep)
  {
    var s := a + [sep] + b;
    if |a| == 0 {
      assert s[1..] == b;
    } else {
      assert s[1..] == a[1..] + [sep] + b;
      SplitAtSeparator(a[1..], sep, b);
      assert [a[0]] + a[1..] == a;
    }
  }

  /** Splitting a join on a separator that no part contains gives the
      parts back, in order. */
  lemma {:induction false} SplitJoin(parts: seq<string>, sep: char)
    requires |parts| > 0
    requires forall k, i :: 0 <= k < |parts| && 0 <= i < |parts[k]| ==> parts[k][i] != sep
    ensures Split(Join(parts, [sep]), sep) == parts
  {
    if |parts| == 1 {
      SplitWithoutSeparator(parts[0], sep);
    } else {
      SplitJoin(parts[1..], sep);
      SplitAtSeparator(parts[0], sep, Join(parts[1..], [sep]));
      assert [parts[0]] + parts[1..] == parts;
    }
  }

  /** Whether `part` occurs in `s` at offset `o`. */
  predicate OccursAt(s: string, part: string, o: int) {
    0 <= o && o + |part| <= |s| && s[o..o + |part|] == part
  }

  /** Every part can be found in the joined text. */
  lemma {:induction false} JoinContainsParts(parts: seq<string>, sep: string, k: nat)
    requires k < |parts|
    ensures exists o :: OccursAt(Join(parts, sep), parts[k], o)
  {
    var j := Join(parts, sep);
    if |parts| == 1 {
      assert j[0..|parts[0]|] == parts[0];
      assert OccursAt(j, parts[k], 0);
    } else {
      var head := parts[0] + sep;
      var rest := Join(parts[1..], sep);
      assert j == head + rest;
      if k == 0 {
        assert j[0..|parts[0]|] == parts[0];
        assert OccursAt(j, parts[k], 0);
      } else {
        JoinContainsParts(parts[1..], sep, k - 1);
        var o :| OccursAt(rest, parts[1..][k - 1], o);
        assert (head + rest)[|head| + o..|head| + o + |parts[k]|] == rest[o..o + |parts[k]|];
        assert OccursAt(j, parts[k], |head| + o);
      }
    }
  }
}

=== FILE: tools.dfy ===
/** The tool dispatcher: a tool name and an argument object become an
    unknown-tool error, a parameter error carrying the validator's issues,
    or one call of the API client. Validated tools build their call from the
    validator's output object; four tools forward raw argument values. */
module Tools {
  import opened Wrappers
  import opened Text
  import opened Json
  import opened Types
  import opened Schema
  import opened ApiClient
  import Catalog

  /** The arguments of a tool call: a JSON object. */
  type Args = map<string, Value>

  datatype Outcome =
    | UnknownTool(name: string)
    | ParamError(issues: seq<Issue>)
    | Call(call: ApiCall)

  /** The label the dispatcher matches for the company-details tool, as
      written, and the catalog's name for that tool. */
  const WrittenCompanyLabel: string := "ompany_details"
  const IntendedCompanyLabel: string := "company_details"

  const UnknownToolPrefix: string := "Bilinmeyen araç: "
  const ParamErrorPrefix: string := "Parametre hatası: "

  // Reading typed parameters from a parsed object.

  function NumberIn(obj: Entries, key: string): Option<real> {
    match Lookup(obj, key)
    case Some(Num(n)) => Some(n)
    case _ => None
  }

  function StringIn(obj: Entries, key: string): Option<string> {
    match Lookup(obj, key)
    case Some(Str(s)) => Some(s)
    case _ => None
  }

  function BooleanIn(obj: Entries, key: string): Option<bool> {
    match Lookup(obj, key)
    case Some(Bool(b)) => Some(b)
    case _ => None
  }

  function StringItems(items: seq<Value>): (r: seq<string>)
    ensures |r| == |items|
  {
    seq(|items|, i requires 0 <= i < |items| => if items[i].Str? then items[i].s else "")
  }

  function StringsIn(obj: Entries, key: string): seq<string> {
    match Lookup(obj, key)
    case Some(Arr(items)) => StringItems(items)
    case _ => []
  }

  function OrderIn(obj: Entries, key: string): Option<SortOrder> {
    match StringIn(obj, key)
    case None => None
    case Some(s) => ParseSortOrder(s)
  }

  function FundTypeIn(obj: Entries, key: string): Option<FundType> {
    match StringIn(obj, key)
    case None => None
    case Some(s) => ParseFundType(s)
  }

  function IntervalIn(obj: Entries, key: string): Option<Interval> {
    match StringIn(obj, key)
    case None => None
    case Some(s) => ParseInterval(s)
  }

  function StartDateIn(obj: Entries, key: string): Option<StartDate> {
    match StringIn(obj, key)
    case None => None
    case Some(s) => ParseStartDate(s)
  }

  function IncreaseTypeIn(obj: Entries, key: string): Option<IncreaseType> {
    match StringIn(obj, key)
    case None => None
    case Some(s) => ParseIncreaseType(s)
  }

  // The calls built from each validated tool's parsed arguments.

  function ListFundsParamsFrom(p: Entries): ListFundsParams {
    ListFundsParams(
      NumberIn(p, "page"), NumberIn(p, "limit"), FundTypeIn(p, "type"), StringIn(p, "search"),
      StringIn(p, "code"), StringIn(p, "management_company"), BooleanIn(p, "tefas"),
      NumberIn(p, "min_risk_value"), NumberIn(p, "max_risk_value"), StringIn(p, "sort"), OrderIn(p, "order"))
  }

  function HistoricalDataParamsFrom(p: Entries): HistoricalDataParams {
    HistoricalDataParams(
      StringIn(p, "start_date"), StringIn(p, "end_date"), IntervalIn(p, "interval"),
      StringIn(p, "sort"), OrderIn(p, "order"))
  }

  function ListCompaniesParamsFrom(p: Entries): ListCompaniesParams {
    ListCompaniesParams(
      NumberIn(p, "page"), NumberIn(p, "limit"), StringIn(p, "sort"), OrderIn(p, "order"),
      NumberIn(p, "min_total_funds"), NumberIn(p, "max_total_funds"), StringIn(p, "search"))
  }

  function StatisticsParamsFrom(p: Entries): StatisticsParams {
    StatisticsParams(
      StringIn(p, "start_date"), StringIn(p, "end_date"), StringIn(p, "sort"), OrderIn(p, "order"),
      NumberIn(p, "page"), NumberIn(p, "limit"))
  }

  function FundTypesParamsFrom(p: Entries): FundTypesParams {
    FundTypesParams(StringIn(p, "sort"), OrderIn(p, "order"), NumberIn(p, "min_total_funds"), NumberIn(p, "max_total_funds"))
  }

  function InflationParamsFrom(p: Entries): InflationParams {
    InflationParams(StringIn(p, "start_date"), StringIn(p, "end_date"))
  }

  /** The nested yearly increase: built only when both the type and the
      value are truthy, so a value of 0 or a missing half gives none. */
  function IncreaseFrom(p: Entries): Option<YearlyIncrease> {
    var kind := IncreaseTypeIn(p, "yearlyIncreaseType");
    var value := NumberIn(p, "yearlyIncreaseValue");
    if Truthy(Lookup(p, "yearlyIncreaseType")) && Truthy(Lookup(p, "yearlyIncreaseValue"))
       && kind.Some? && value.Some?
    then Some(YearlyIncrease(kind.value, value.value))
    else None
  }

  /** The analysis parameters. The fallbacks of the three required fields
      are never taken after a successful parse (`AnalyzeFundForwards`). */
  function AnalysisParamsFrom(p: Entries): FundAnalysisParams {
    FundAnalysisParams(
      StringIn(p, "code").GetOr(""),
      StartDateIn(p, "startDate").GetOr(Last1Day),
      NumberIn(p, "initialInvestment").GetOr(0.0),
      NumberIn(p, "monthlyInvestment"),
      IncreaseFrom(p),
      BooleanIn(p, "includeMonthlyDetails"))
  }

  function ListFundsCall(p: Entries): ApiCall {
    ListFunds(ListFundsParamsFrom(p))
  }

  function CompareFundsCall(p: Entries): ApiCall {
    CompareFunds(StringsIn(p, "codes"))
  }

  function AnalyzeFundCall(p: Entries): ApiCall {
    AnalyzeFund(AnalysisParamsFrom(p))
  }

  /** The code goes to the path; the other fields are the query. */
  function HistoricalDataCall(p: Entries): ApiCall {
    GetFundHistoricalData(StringIn(p, "code").GetOr(""), HistoricalDataParamsFrom(p))
  }

  function ListCompaniesCall(p: Entries): ApiCall {
    ListCompanies(ListCompaniesParamsFrom(p))
  }

  function CompanyDetailsCall(p: Entries): ApiCall {
    GetCompanyDetails(StringIn(p, "code").GetOr(""), BooleanIn(p, "include_funds"))
  }

  function StatisticsCall(p: Entries): ApiCall {
    GetStatistics(StatisticsParamsFrom(p))
  }

  function FundTypesCall(p: Entries): ApiCall {
    ListFundTypes(FundTypesParamsFrom(p))
  }

  function InflationCall(p: Entries): ApiCall {
    GetInflationRates(InflationParamsFrom(p))
  }

  /** A validated branch: the schema's issues, or the call built from its output. */
  function Validated(schema: ObjectSchema, args: Args, build: Entries -> ApiCall): (r: Outcome)
    ensures r.ParamError? <==> !Conforms(schema, args)
    ensures r.ParamError? ==> r.issues == Validate(schema, args) && |r.issues| > 0
    ensures r.Call? ==> r.call == build(Strip(schema, args))
  {
    match Parse(schema, args)
    case Failure(issues) => ParamError(issues)
    case Success(parsed) => Call(build(parsed))
  }

  /** `handleToolCall` up to the client call, with the company-details case
      label as a parameter. Cases are tried in source order. */
  function Dispatch(companyLabel: string, name: string, args: Args): (outcome: Outcome)
    ensures outcome.UnknownTool? ==> outcome.name == name
    ensures outcome.ParamError? ==> |outcome.issues| > 0
  {
    if name == "list_funds" then Validated(ListFundsSchema, args, ListFundsCall)
    else if name == "top_performing_funds" then Call(GetTopPerformingFunds(Get(args, "reference_funds")))
    else if name == "compare_funds" then Validated(CompareFundsSchema, args, CompareFundsCall)
    else if name == "analyze_fund" then Validated(AnalyzeFundSchema, args, AnalyzeFundCall)
    else if name == "fund_historical_data" then Validated(HistoricalDataSchema, args, HistoricalDataCall)
    else if name == "list_companies" then Validated(ListCompaniesSchema, args, ListCompaniesCall)
    else if name == companyLabel then Validated(CompanyDetailsSchema, args, CompanyDetailsCall)
    else if name == "statistics" then Validated(StatisticsSchema, args, StatisticsCall)
    else if name == "latest_statistics" then Call(GetLatestStatistics)
    else if name == "statistics_by_date" then Call(GetStatisticsByDate(Get(args, "date")))
    else if name == "list_fund_types" then Validated(FundTypesSchema, args, FundTypesCall)
    else if name == "fund_type_details" then Call(GetFundTypeDetails(Get(args, "type")))
    else if name == "inflation_rates" then Validated(InflationSchema, args, InflationCall)
    else if name == "latest_inflation_rate" then Call(GetLatestInflationRate)
    else if name == "inflation_rate_by_month" then Call(GetInflationRateByMonth(Get(args, "year"), Get(args, "month")))
    else UnknownTool(name)
  }

  /** The case labels of the dispatcher, in source order. */
  function DispatchNames(companyLabel: string): seq<string> {
    [ "list_funds", "top_performing_funds", "compare_funds", "analyze_fund",
      "fund_historical_data", "list_companies", companyLabel, "statistics",
      "latest_statistics", "statistics_by_date", "list_fund_types",
      "fund_type_details", "inflation_rates", "latest_inflation_rate",
      "inflation_rate_by_month" ]
  }

  /** The dispatcher as written. */
  function HandleToolCall(name: string, args: Args): (outcome: Outcome)
    ensures name == IntendedCompanyLabel ==> outcome == UnknownTool(name)
  {
    Dispatch(WrittenCompanyLabel, name, args)
  }

  /** The dispatcher with the company-details label the catalog advertises. */
  function HandleToolCallCorrected(name: string, args: Args): (outcome: Outcome)
    ensures name == IntendedCompanyLabel ==>
              outcome.ParamError? || (outcome.Call? && outcome.call.GetCompanyDetails?)
  {
    Dispatch(IntendedCompanyLabel, name, args)
  }

  /** The company-details label matters only to the names it could match. */
  lemma DispatchOffLabel(label1: string, label2: string, name: string, args: Args)
    requires name != label1 && name != label2
    ensures Dispatch(label1, name, args) == Dispatch(label2, name, args)
  {
  }

  /** Correcting the label changes the outcome of no other tool name. */
  lemma CorrectionOnlyTouchesLabels(name: string, args: Args)
    requires name != IntendedCompanyLabel && name != WrittenCompanyLabel
    ensures HandleToolCall(name, args) == HandleToolCallCorrected(name, args)
  {
    DispatchOffLabel(WrittenCompanyLabel, IntendedCompanyLabel, name, args);
  }

  // Error messages.

  function KeyText(k: PathKey): string {
    match k
    case Key(name) => name
    case Index(i) => NatText(i)
  }

  function KeyTexts(path: seq<PathKey>): (r: seq<string>)
    ensures |r| == |path|
  {
    seq(|path|, i requires 0 <= i < |path| => KeyText(path[i]))
  }

  /** `path.join('.')`. */
  function PathText(path: seq<PathKey>): string {
    Join(KeyTexts(path), ".")
  }

  function IssueText(issue: Issue, messageOf: IssueCode -> string): string {
    PathText(issue.path) + ": " + messageOf(issue.code)
  }

  /** The one message of a failed validation; `messageOf` is the validator's
      wording of an issue. */
  function ParamErrorText(issues: seq<Issue>, messageOf: IssueCode -> string): (text: string)
    ensures StartsWith(text, ParamErrorPrefix) && !StartsWith(text, UnknownToolPrefix)
  {
    PrefixedMessage(ParamErrorPrefix, Join(seq(|issues|, i requires 0 <= i < |issues| => IssueText(issues[i], messageOf)), ", "));
    ParamErrorPrefix + Join(seq(|issues|, i requires 0 <= i < |issues| => IssueText(issues[i], messageOf)), ", ")
  }

  /** `handleToolCall` end to end: the response body, or the message of the
      error it throws. */
  function Invoke(name: string, args: Args, messageOf: IssueCode -> string, send: Transport): (r: Result<Value, string>)
    ensures r.Failure? ==> (StartsWith(r.error, UnknownToolPrefix) <==> HandleToolCall(name, args).UnknownTool?)
    ensures r.Failure? ==> (StartsWith(r.error, ParamErrorPrefix) <==> HandleToolCall(name, args).ParamError?)
  {
    var outcome := HandleToolCall(name, args);
    if Respond(outcome, messageOf, send).Failure? then
      ErrorOrigins(outcome, messageOf, send);
      Respond(outcome, messageOf, send)
    else
      Respond(outcome, messageOf, send)
  }

  /** What a dispatch outcome becomes: the two local errors are thrown with
      their prefixes, a call is made and its result or error passes through
      unchanged. */
  function Respond(outcome: Outcome, messageOf: IssueCode -> string, send: Transport): (r: Result<Value, string>)
    ensures !outcome.Call? ==> r.Failure?
    ensures r.Failure? ==> |r.error| > 0
  {
    match outcome
    case UnknownTool(n) => Failure(UnknownToolPrefix + n)
    case ParamError(issues) => Failure(ParamErrorText(issues, messageOf))
    case Call(call) => ClientErrorOrigins(send, call); Perform(send, call)
  }

  // Dispatch.

  /** A name fails as unknown exactly when no case label matches it, and
      the error names it. */
  lemma UnknownToolIffUnmatched(companyLabel: string, name: string, args: Args)
    ensures Dispatch(companyLabel, name, args).UnknownTool? <==> name !in DispatchNames(companyLabel)
    ensures Dispatch(companyLabel, name, args).UnknownTool? ==> Dispatch(companyLabel, name, args).name == name
  {
  }

  /** An unknown name fails with `Bilinmeyen araç: <name>` whatever the
      network would answer: no request is made. */
  lemma UnknownToolSendsNothing(name: string, args: Args, messageOf: IssueCode -> string, send: Transport)
    requires name !in DispatchNames(WrittenCompanyLabel)
    ensures Invoke(name, args, messageOf, send) == Failure(UnknownToolPrefix + name)
  {
    UnknownToolIffUnmatched(WrittenCompanyLabel, name, args);
  }

  /** The catalog advertises `company_details`, which the dispatcher does not
      match: calling it always ends in the unknown-tool error, even with
      arguments its schema accepts. */
  lemma CompanyDetailsUnreachable(args: Args, messageOf: IssueCode -> string, send: Transport)
    ensures "company_details" in Catalog.ToolNames()
    ensures "company_details" !in DispatchNames(WrittenCompanyLabel)
    ensures HandleToolCall("company_details", args) == UnknownTool("company_details")
    ensures Invoke("company_details", args, messageOf, send) == Failure("Bilinmeyen araç: company_details")
    ensures WrittenCompanyLabel !in Catalog.ToolNames()
  {
    Catalog.CatalogNames();
    UnknownToolIffUnmatched(WrittenCompanyLabel, "company_details", args);
    assert Respond(UnknownTool("company_details"), messageOf, send) == Failure(UnknownToolPrefix + "company_details");
    assert UnknownToolPrefix + "company_details" == "Bilinmeyen araç: company_details";
  }

  /** With the label corrected, the dispatcher matches exactly the names the
      catalog lists, in the same order. */
  lemma CorrectedDispatchMatchesCatalog(name: string, args: Args)
    ensures DispatchNames(IntendedCompanyLabel) == Catalog.ToolNames()
    ensures HandleToolCallCorrected(name, args).UnknownTool? <==> Catalog.Find(name).None?
  {
    Catalog.CatalogNames();
    UnknownToolIffUnmatched(IntendedCompanyLabel, name, args);
  }

  /** A validated tool rejects exactly the arguments that break the input
      schema the catalog advertises for it, with the validator's issues;
      otherwise it makes a call. */
  lemma ValidationEnforcesCatalog(name: string, args: Args)
    requires Catalog.SchemaFor(name).Some? && name != "company_details"
    ensures Catalog.Find(name).Some?
    ensures HandleToolCall(name, args).ParamError? <==> !Catalog.Satisfies(Catalog.Find(name).value, args)
    ensures HandleToolCall(name, args).ParamError? ==> HandleToolCall(name, args).issues == Validate(Catalog.SchemaFor(name).value, args)
    ensures !HandleToolCall(name, args).ParamError? ==> HandleToolCall(name, args).Call?
  {
    var schema := Catalog.SchemaFor(name).value;
    Catalog.CatalogAdvertisesSchemas(name);
    Catalog.DescribedSchemaAgrees(name, schema, args);
    DispatchValidates(name, args);
  }

  lemma DispatchValidates(name: string, args: Args)
    requires Catalog.SchemaFor(name).Some? && name != "company_details"
    ensures HandleToolCall(name, args) == Validated(Catalog.SchemaFor(name).value, args, CallBuilder(name))
  {
  }

  /** The call a validated case label builds from the parsed arguments. */
  function CallBuilder(name: string): Entries -> ApiCall {
    if name == "list_funds" then ListFundsCall
    else if name == "compare_funds" then CompareFundsCall
    else if name == "analyze_fund" then AnalyzeFundCall
    else if name == "fund_historical_data" then HistoricalDataCall
    else if name == "list_companies" then ListCompaniesCall
    else if name == "statistics" then StatisticsCall
    else if name == "list_fund_types" then FundTypesCall
    else if name == "inflation_rates" then InflationCall
    else CompanyDetailsCall
  }

  /** The same holds for `company_details` once its label is corrected. */
  lemma CorrectedCompanyDetailsValidates(args: Args)
    ensures Catalog.Find("company_details").Some?
    ensures HandleToolCallCorrected("company_details", args).ParamError?
            <==> !Catalog.Satisfies(Catalog.Find("company_details").value, args)
    ensures !HandleToolCallCorrected("company_details", args).ParamError? ==>
              HandleToolCallCorrected("company_details", args).Call?
  {
    Catalog.CatalogAdvertisesSchemas("company_details");
    Catalog.DescribedSchemaAgrees("company_details", CompanyDetailsSchema, args);
  }

  /** With the label corrected, accepted arguments call `getCompanyDetails`
      with the given code and the given `include_funds` flag, if any. */
  lemma CorrectedCompanyDetailsForwards(args: Args)
    requires Conforms(CompanyDetailsSchema, args)
    ensures "code" in args && args["code"].Str?
    ensures "include_funds" in args ==> args["include_funds"].Bool?
    ensures HandleToolCallCorrected("company_details", args)
            == Call(GetCompanyDetails(args["code"].s,
                                      if "include_funds" in args then Some(args["include_funds"].b) else None))
  {
    var s := CompanyDetailsSchema;
    assert FieldOk(s[0], args) && FieldOk(s[1], args);
    ParsedPropertyRead(s, args, 0);
    ParsedPropertyRead(s, args, 1);
    assert HandleToolCallCorrected("company_details", args) == Call(CompanyDetailsCall(Strip(s, args)));
  }

  // Reading a conforming argument object back through its parsed output.

  lemma NumberFieldRead(schema: ObjectSchema, args: Args, j: nat)
    requires Conforms(schema, args) && j < |schema| && schema[j].fieldType.NumberField?
    ensures NumberOf(NumberIn(Strip(schema, args), schema[j].name)) == Get(args, schema[j].name)
  {
    ParsedPropertyRead(schema, args, j);
    assert FieldOk(schema[j], args);
  }

  lemma StringFieldRead(schema: ObjectSchema, args: Args, j: nat)
    requires Conforms(schema, args) && j < |schema| && schema[j].fieldType == StringField
    ensures StringOf(StringIn(Strip(schema, args), schema[j].name)) == Get(args, schema[j].name)
  {
    ParsedPropertyRead(schema, args, j);
    assert FieldOk(schema[j], args);
  }

  lemma BooleanFieldRead(schema: ObjectSchema, args: Args, j: nat)
    requires Conforms(schema, args) && j < |schema| && schema[j].fieldType == BooleanField
    ensures BooleanOf(BooleanIn(Strip(schema, args), schema[j].name)) == Get(args, schema[j].name)
  {
    ParsedPropertyRead(schema, args, j);
    assert FieldOk(schema[j], args);
  }

  lemma OrderFieldRead(schema: ObjectSchema, args: Args, j: nat)
    requires Conforms(schema, args) && j < |schema| && schema[j].fieldType == OrderField
    ensures OrderOf(OrderIn(Strip(schema, args), schema[j].name)) == Get(args, schema[j].name)
  {
    var key := schema[j].name;
    ParsedPropertyRead(schema, args, j);
    assert FieldOk(schema[j], args);
    if key in args {
      SortOrderEnumeration(Asc, args[key].s);
    }
  }

  lemma FundTypeFieldRead(schema: ObjectSchema, args: Args, j: nat)
    requires Conforms(schema, args) && j < |schema| && schema[j].fieldType == EnumField(FundTypeTexts(), true)
    ensures FundTypeOf(FundTypeIn(Strip(schema, args), schema[j].name)) == Get(args, schema[j].name)
  {
    var key := schema[j].name;
    ParsedPropertyRead(schema, args, j);
    assert FieldOk(schema[j], args);
    if key in args {
      ParseFundTypeRoundTrip(Altin, args[key].s);
    }
  }

  lemma IntervalFieldRead(schema: ObjectSchema, args: Args, j: nat)
    requires Conforms(schema, args) && j < |schema| && schema[j].fieldType == EnumField(Intervals, false)
    ensures IntervalOf(IntervalIn(Strip(schema, args), schema[j].name)) == Get(args, schema[j].name)
  {
    var key := schema[j].name;
    ParsedPropertyRead(schema, args, j);
    assert FieldOk(schema[j], args);
    if key in args {
      IntervalEnumeration(Daily, args[key].s);
    }
  }

  // The query a validated list tool sends is its parsed argument object. Each
  // proof reads the parsed object back field by field (`...FromReads`, over
  // any object `p` with the right reads) and then instantiates `p`.

  lemma ListFundsDeclared(s: ObjectSchema, args: Args)
    requires |s| == 11
    requires s[0].name == "page" && s[1].name == "limit" && s[2].name == "type"
    requires s[3].name == "search" && s[4].name == "code" && s[5].name == "management_company"
    requires s[6].name == "tefas" && s[7].name == "min_risk_value" && s[8].name == "max_risk_value"
    requires s[9].name == "sort" && s[10].name == "order"
    ensures Declared(s, args) == ListFundsEntries(args)
  {
  }

  /** The `list_funds` properties in declaration order with the arguments' values. */
  function ListFundsEntries(args: Args): Entries {
    [ ("page", Get(args, "page")),
      ("limit", Get(args, "limit")),
      ("type", Get(args, "type")),
      ("search", Get(args, "search")),
      ("code", Get(args, "code")),
      ("management_company", Get(args, "management_company")),
      ("tefas", Get(args, "tefas")),
      ("min_risk_value", Get(args, "min_risk_value")),
      ("max_risk_value", Get(args, "max_risk_value")),
      ("sort", Get(args, "sort")),
      ("order", Get(args, "order")) ]
  }

  lemma ListFundsQueryFromReads(p: Entries, args: Args)
    requires NumberOf(NumberIn(p, "page")) == Get(args, "page")
    requires NumberOf(NumberIn(p, "limit")) == Get(args, "limit")
    requires FundTypeOf(FundTypeIn(p, "type")) == Get(args, "type")
    requires StringOf(StringIn(p, "search")) == Get(args, "search")
    requires StringOf(StringIn(p, "code")) == Get(args, "code")
    requires StringOf(StringIn(p, "management_company")) == Get(args, "management_company")
    requires BooleanOf(BooleanIn(p, "tefas")) == Get(args, "tefas")
    requires NumberOf(NumberIn(p, "min_risk_value")) == Get(args, "min_risk_value")
    requires NumberOf(NumberIn(p, "max_risk_value")) == Get(args, "max_risk_value")
    requires StringOf(StringIn(p, "sort")) == Get(args, "sort")
    requires OrderOf(OrderIn(p, "order")) == Get(args, "order")
    ensures ListFundsQuery(ListFundsParamsFrom(p)) == Defined(ListFundsEntries(args))
  {
  }

  lemma ListCompaniesQueryFromReads(p: Entries, s: ObjectSchema, args: Args)
    requires |s| == 7
    requires s[0].name == "page" && s[1].name == "limit" && s[2].name == "sort"
    requires s[3].name == "order" && s[4].name == "min_total_funds" && s[5].name == "max_total_funds"
    requires s[6].name == "search"
    requires NumberOf(NumberIn(p, "page")) == Get(args, "page")
    requires NumberOf(NumberIn(p, "limit")) == Get(args, "limit")
    requires StringOf(StringIn(p, "sort")) == Get(args, "sort")
    requires OrderOf(OrderIn(p, "order")) == Get(args, "order")
    requires NumberOf(NumberIn(p, "min_total_funds")) == Get(args, "min_total_funds")
    requires NumberOf(NumberIn(p, "max_total_funds")) == Get(args, "max_total_funds")
    requires StringOf(StringIn(p, "search")) == Get(args, "search")
    ensures ListCompaniesQuery(ListCompaniesParamsFrom(p)) == Defined(Declared(s, args))
  {
    assert Declared(s, args) == [
      ("page", Get(args, "page")),
      ("limit", Get(args, "limit")),
      ("sort", Get(args, "sort")),
      ("order", Get(args, "order")),
      ("min_total_funds", Get(args, "min_total_funds")),
      ("max_total_funds", Get(args, "max_total_funds")),
      ("search", Get(args, "search"))];
  }

  lemma StatisticsQueryFromReads(p: Entries, s: ObjectSchema, args: Args)
    requires |s| == 6
    requires s[0].name == "start_date" && s[1].name == "end_date" && s[2].name == "sort"
    requires s[3].name == "order" && s[4].name == "page" && s[5].name == "limit"
    requires StringOf(StringIn(p, "start_date")) == Get(args, "start_date")
    requires StringOf(StringIn(p, "end_date")) == Get(args, "end_date")
    requires StringOf(StringIn(p, "sort")) == Get(args, "sort")
    requires OrderOf(OrderIn(p, "order")) == Get(args, "order")
    requires NumberOf(NumberIn(p, "page")) == Get(args, "page")
    requires NumberOf(NumberIn(p, "limit")) == Get(args, "limit")
    ensures StatisticsQuery(StatisticsParamsFrom(p)) == Defined(Declared(s, args))
  {
    assert Declared(s, args) == [
      ("start_date", Get(args, "start_date")),
      ("end_date", Get(args, "end_date")),
      ("sort", Get(args, "sort")),
      ("order", Get(args, "order")),
      ("page", Get(args, "page")),
      ("limit", Get(args, "limit"))];
  }

  lemma FundTypesQueryFromReads(p: Entries, s: ObjectSchema, args: Args)
    requires |s| == 4
    requires s[0].name == "sort" && s[1].name == "order" && s[2].name == "min_total_funds"
    requires s[3].name == "max_total_funds"
    requires StringOf(StringIn(p, "sort")) == Get(args, "sort")
    requires OrderOf(OrderIn(p, "order")) == Get(args, "order")
    requires NumberOf(NumberIn(p, "min_total_funds")) == Get(args, "min_total_funds")
    requires NumberOf(NumberIn(p, "max_total_funds")) == Get(args, "max_total_funds")
    ensures FundTypesQuery(FundTypesParamsFrom(p)) == Defined(Declared(s, args))
  {
    assert Declared(s, args) == [
      ("sort", Get(args, "sort")),
      ("order", Get(args, "order")),
      ("min_total_funds", Get(args, "min_total_funds")),
      ("max_total_funds", Get(args, "max_total_funds"))];
  }

  lemma InflationQueryFromReads(p: Entries, s: ObjectSchema, args: Args)
    requires |s| == 2
    requires s[0].name == "start_date" && s[1].name == "end_date"
    requires StringOf(StringIn(p, "start_date")) == Get(args, "start_date")
    requires StringOf(StringIn(p, "end_date")) == Get(args, "end_date")
    ensures InflationQuery(InflationParamsFrom(p)) == Defined(Declared(s, args))
  {
    assert Declared(s, args) == [
      ("start_date", Get(args, "start_date")),
      ("end_date", Get(args, "end_date"))];
  }

  lemma HistoricalDataQueryFromReads(p: Entries, s: ObjectSchema, args: Args)
    requires |s| == 5
    requires s[0].name == "start_date" && s[1].name == "end_date" && s[2].name == "interval"
    requires s[3].name == "sort" && s[4].name == "order"
    requires StringOf(StringIn(p, "start_date")) == Get(args, "start_date")
    requires StringOf(StringIn(p, "end_date")) == Get(args, "end_date")
    requires IntervalOf(IntervalIn(p, "interval")) == Get(args, "interval")
    requires StringOf(StringIn(p, "sort")) == Get(args, "sort")
    requires OrderOf(OrderIn(p, "order")) == Get(args, "order")
    ensures HistoricalDataQuery(HistoricalDataParamsFrom(p)) == Defined(Declared(s, args))
  {
    assert Declared(s, args) == [
      ("start_date", Get(args, "start_date")),
      ("end_date", Get(args, "end_date")),
      ("interval", Get(args, "interval")),
      ("sort", Get(args, "sort")),
      ("order", Get(args, "order"))];
  }

  /** Decoding a valid `list_funds` object into its parameter record and
      encoding that record as the client's query gives the parsed object back. */
  lemma ListFundsParamsRoundTrip(args: Args)
    requires Conforms(ListFundsSchema, args)
    ensures ListFundsQuery(ListFundsParamsFrom(Strip(ListFundsSchema, args))) == Strip(ListFundsSchema, args)
  {
    var s := ListFundsSchema;
    NumberFieldRead(s, args, 0);
    NumberFieldRead(s, args, 1);
    FundTypeFieldRead(s, args, 2);
    StringFieldRead(s, args, 3);
    StringFieldRead(s, args, 4);
    StringFieldRead(s, args, 5);
    BooleanFieldRead(s, args, 6);
    NumberFieldRead(s, args, 7);
    NumberFieldRead(s, args, 8);
    StringFieldRead(s, args, 9);
    OrderFieldRead(s, args, 10);
    ListFundsQueryFromReads(Strip(s, args), args);
    ListFundsDeclared(s, args);
    StripIsDefinedDeclared(s, args);
  }

  /** Decoding a valid `list_companies` object into its parameter record and
      encoding that record as the client's query gives the parsed object back. */
  lemma ListCompaniesParamsRoundTrip(args: Args)
    requires Conforms(ListCompaniesSchema, args)
    ensures ListCompaniesQuery(ListCompaniesParamsFrom(Strip(ListCompaniesSchema, args))) == Strip(ListCompaniesSchema, args)
  {
    var s := ListCompaniesSchema;
    NumberFieldRead(s, args, 0);
    NumberFieldRead(s, args, 1);
    StringFieldRead(s, args, 2);
    OrderFieldRead(s, args, 3);
    NumberFieldRead(s, args, 4);
    NumberFieldRead(s, args, 5);
    StringFieldRead(s, args, 6);
    ListCompaniesQueryFromReads(Strip(s, args), s, args);
    StripIsDefinedDeclared(s, args);
  }

  /** Decoding a valid `statistics` object into its parameter record and
      encoding that record as the client's query gives the parsed object back. */
  lemma StatisticsParamsRoundTrip(args: Args)
    requires Conforms(StatisticsSchema, args)
    ensures StatisticsQuery(StatisticsParamsFrom(Strip(StatisticsSchema, args))) == Strip(StatisticsSchema, args)
  {
    var s := StatisticsSchema;
    StringFieldRead(s, args, 0);
    StringFieldRead(s, args, 1);
    StringFieldRead(s, args, 2);
    OrderFieldRead(s, args, 3);
    NumberFieldRead(s, args, 4);
    NumberFieldRead(s, args, 5);
    StatisticsQueryFromReads(Strip(s, args), s, args);
    StripIsDefinedDeclared(s, args);
  }

  /** Decoding a valid `list_fund_types` object into its parameter record and
      encoding that record as the client's query gives the parsed object back. */
  lemma FundTypesParamsRoundTrip(args: Args)
    requires Conforms(FundTypesSchema, args)
    ensures FundTypesQuery(FundTypesParamsFrom(Strip(FundTypesSchema, args))) == Strip(FundTypesSchema, args)
  {
    var s := FundTypesSchema;
    StringFieldRead(s, args, 0);
    OrderFieldRead(s, args, 1);
    NumberFieldRead(s, args, 2);
    NumberFieldRead(s, args, 3);
    FundTypesQueryFromReads(Strip(s, args), s, args);
    StripIsDefinedDeclared(s, args);
  }

  /** Decoding a valid `inflation_rates` object into its parameter record and
      encoding that record as the client's query gives the parsed object back. */
  lemma InflationParamsRoundTrip(args: Args)
    requires Conforms(InflationSchema, args)
    ensures InflationQuery(InflationParamsFrom(Strip(InflationSchema, args))) == Strip(InflationSchema, args)
  {
    var s := InflationSchema;
    StringFieldRead(s, args, 0);
    StringFieldRead(s, args, 1);
    InflationQueryFromReads(Strip(s, args), s, args);
    StripIsDefinedDeclared(s, args);
  }

  /** For a valid `fund_historical_data` object, the query is the parsed object less
      its leading `code`. */
  lemma HistoricalDataParamsRoundTrip(args: Args)
    requires Conforms(HistoricalDataSchema, args)
    ensures HistoricalDataQuery(HistoricalDataParamsFrom(Strip(HistoricalDataSchema, args))) == Strip(HistoricalDataSchema[1..], args)
  {
    var s := HistoricalDataSchema;
    StringFieldRead(s, args, 1);
    StringFieldRead(s, args, 2);
    IntervalFieldRead(s, args, 3);
    StringFieldRead(s, args, 4);
    OrderFieldRead(s, args, 5);
    HistoricalDataQueryFromReads(Strip(s, args), s[1..], args);
    StripIsDefinedDeclared(s[1..], args);
  }

  // What each validated tool accepts, written out from its schema.

  predicate NumberWithin(args: Args, key: string, lo: real, hi: Option<real>) {
    key in args ==> args[key].Num? && lo <= args[key].n && (hi.Some? ==> args[key].n <= hi.value)
  }

  predicate OptionalString(args: Args, key: string) {
    key in args ==> args[key].Str?
  }

  predicate OptionalBoolean(args: Args, key: string) {
    key in args ==> args[key].Bool?
  }

  predicate OptionalOneOf(args: Args, key: string, options: seq<string>) {
    key in args ==> args[key].Str? && args[key].s in options
  }

  /** `list_funds`: page at least 1, limit in [1, 100], a known fund type,
      risk values in [1, 7], sort direction `ASC` or `DESC`. */
  predicate ListFundsArgumentsValid(args: Args) {
    && NumberWithin(args, "page", 1.0, None)
    && NumberWithin(args, "limit", 1.0, Some(100.0))
    && OptionalOneOf(args, "type", FundTypeTexts())
    && OptionalString(args, "search")
    && OptionalString(args, "code")
    && OptionalString(args, "management_company")
    && OptionalBoolean(args, "tefas")
    && NumberWithin(args, "min_risk_value", 1.0, Some(7.0))
    && NumberWithin(args, "max_risk_value", 1.0, Some(7.0))
    && OptionalString(args, "sort")
    && OptionalOneOf(args, "order", SortOrderTexts())
  }

  lemma ListFundsConformance(s: ObjectSchema, args: Args)
    requires |s| == 11
    requires s[0] == Field("page", NumberField(Some(1.0), None), false)
    requires s[1] == Field("limit", NumberField(Some(1.0), Some(100.0)), false)
    requires s[2] == Field("type", EnumField(FundTypeTexts(), true), false)
    requires s[3] == Field("search", StringField, false)
    requires s[4] == Field("code", StringField, false)
    requires s[5] == Field("management_company", StringField, false)
    requires s[6] == Field("tefas", BooleanField, false)
    requires s[7] == Field("min_risk_value", NumberField(Some(1.0), Some(7.0)), false)
    requires s[8] == Field("max_risk_value", NumberField(Some(1.0), Some(7.0)), false)
    requires s[9] == Field("sort", StringField, false)
    requires s[10] == Field("order", EnumField(SortOrderTexts(), false), false)
    ensures Conforms(s, args) <==> ListFundsArgumentsValid(args)
  {
    if Conforms(s, args) {
      assert FieldOk(s[0], args) && FieldOk(s[1], args) && FieldOk(s[2], args) && FieldOk(s[3], args);
      assert FieldOk(s[4], args) && FieldOk(s[5], args) && FieldOk(s[6], args) && FieldOk(s[7], args);
      assert FieldOk(s[8], args) && FieldOk(s[9], args) && FieldOk(s[10], args);
    }
  }

  /** `list_funds` makes its call exactly for arguments within the bounds
      above; anything else is a parameter error and no call. */
  lemma ListFundsAcceptance(args: Args)
    ensures HandleToolCall("list_funds", args).Call? <==> ListFundsArgumentsValid(args)
    ensures !ListFundsArgumentsValid(args) ==> HandleToolCall("list_funds", args).ParamError?
  {
    SchemaEnumerationsMatchTypes();
    ListFundsConformance(ListFundsSchema, args);
  }

  /** `analyze_fund`: a code, one of the nine start windows, a non-negative
      initial investment, and non-negative optional amounts. */
  predicate AnalyzeFundArgumentsValid(args: Args) {
    && "code" in args && args["code"].Str?
    && "startDate" in args && args["startDate"].Str? && args["startDate"].s in StartDateTexts()
    && "initialInvestment" in args && NumberWithin(args, "initialInvestment", 0.0, None)
    && NumberWithin(args, "monthlyInvestment", 0.0, None)
    && OptionalOneOf(args, "yearlyIncreaseType", IncreaseTypeTexts())
    && NumberWithin(args, "yearlyIncreaseValue", 0.0, None)
    && OptionalBoolean(args, "includeMonthlyDetails")
  }

  lemma AnalyzeFundConformance(s: ObjectSchema, args: Args)
    requires |s| == 7
    requires s[0] == Field("code", StringField, true)
    requires s[1] == Field("startDate", EnumField(StartDateTexts(), false), true)
    requires s[2] == Field("initialInvestment", NumberField(Some(0.0), None), true)
    requires s[3] == Field("monthlyInvestment", NumberField(Some(0.0), None), false)
    requires s[4] == Field("yearlyIncreaseType", EnumField(IncreaseTypeTexts(), false), false)
    requires s[5] == Field("yearlyIncreaseValue", NumberField(Some(0.0), None), false)
    requires s[6] == Field("includeMonthlyDetails", BooleanField, false)
    ensures Conforms(s, args) <==> AnalyzeFundArgumentsValid(args)
  {
    if Conforms(s, args) {
      assert FieldOk(s[0], args) && FieldOk(s[1], args) && FieldOk(s[2], args) && FieldOk(s[3], args);
      assert FieldOk(s[4], args) && FieldOk(s[5], args) && FieldOk(s[6], args);
    }
  }

  lemma AnalyzeFundAcceptance(args: Args)
    ensures HandleToolCall("analyze_fund", args).Call? <==> AnalyzeFundArgumentsValid(args)
    ensures !AnalyzeFundArgumentsValid(args) ==> HandleToolCall("analyze_fund", args).ParamError?
  {
    SchemaEnumerationsMatchTypes();
    AnalyzeFundConformance(AnalyzeFundSchema, args);
  }

  // What each tool forwards to the client.

  /** `compare_funds` calls only with an array of two to five strings, and
      forwards them in order; the client's own count check then always passes. */
  lemma CompareFundsForwardsCodes(args: Args)
    ensures HandleToolCall("compare_funds", args).Call? <==>
              && "codes" in args && args["codes"].Arr?
              && 2 <= |args["codes"].items| <= 5
              && forall i :: 0 <= i < |args["codes"].items| ==> args["codes"].items[i].Str?
    ensures HandleToolCall("compare_funds", args).Call? ==>
              && HandleToolCall("compare_funds", args).call.CompareFunds?
              && |HandleToolCall("compare_funds", args).call.codes| == |args["codes"].items|
              && (forall i :: 0 <= i < |args["codes"].items| ==>
                    HandleToolCall("compare_funds", args).call.codes[i] == args["codes"].items[i].s)
              && Build(HandleToolCall("compare_funds", args).call).Success?
  {
    var s := CompareFundsSchema;
    if Conforms(s, args) {
      assert FieldOk(s[0], args);
      ParsedPropertyRead(s, args, 0);
    }
  }

  /** The analysis parameters read from any object whose seven properties
      are those of valid arguments. */
  lemma AnalysisFromReads(p: Entries, args: Args)
    requires AnalyzeFundArgumentsValid(args)
    requires Lookup(p, "code") == Get(args, "code")
    requires Lookup(p, "startDate") == Get(args, "startDate")
    requires Lookup(p, "initialInvestment") == Get(args, "initialInvestment")
    requires Lookup(p, "monthlyInvestment") == Get(args, "monthlyInvestment")
    requires Lookup(p, "yearlyIncreaseType") == Get(args, "yearlyIncreaseType")
    requires Lookup(p, "yearlyIncreaseValue") == Get(args, "yearlyIncreaseValue")
    requires Lookup(p, "includeMonthlyDetails") == Get(args, "includeMonthlyDetails")
    ensures var r := AnalysisParamsFrom(p);
            && args["code"] == Str(r.code)
            && args["startDate"] == Str(r.startDate.Text())
            && args["initialInvestment"] == Num(r.initialInvestment)
            && NumberOf(r.monthlyInvestment) == Get(args, "monthlyInvestment")
            && BooleanOf(r.includeMonthlyDetails) == Get(args, "includeMonthlyDetails")
            && (r.yearlyIncrease.Some? <==>
                  "yearlyIncreaseType" in args && "yearlyIncreaseValue" in args
                  && args["yearlyIncreaseValue"] != Num(0.0))
            && (r.yearlyIncrease.Some? ==>
                  args["yearlyIncreaseType"] == Str(r.yearlyIncrease.value.kind.Text())
                  && args["yearlyIncreaseValue"] == Num(r.yearlyIncrease.value.value))
  {
    StartDateEnumeration(Last1Day, args["startDate"].s);
    var d := ParseStartDate(args["startDate"].s).value;
    StartDateEnumeration(d, args["startDate"].s);
    IncreaseFromReads(p, args);
  }

  lemma IncreaseFromReads(p: Entries, args: Args)
    requires AnalyzeFundArgumentsValid(args)
    requires Lookup(p, "yearlyIncreaseType") == Get(args, "yearlyIncreaseType")
    requires Lookup(p, "yearlyIncreaseValue") == Get(args, "yearlyIncreaseValue")
    ensures IncreaseFrom(p).Some? <==>
              "yearlyIncreaseType" in args && "yearlyIncreaseValue" in args
              && args["yearlyIncreaseValue"] != Num(0.0)
    ensures IncreaseFrom(p).Some? ==>
              args["yearlyIncreaseType"] == Str(IncreaseFrom(p).value.kind.Text())
              && args["yearlyIncreaseValue"] == Num(IncreaseFrom(p).value.value)
  {
    if "yearlyIncreaseType" in args {
      var t := args["yearlyIncreaseType"].s;
      IncreaseTypeEnumeration(Percentage, t);
      IncreaseTypeEnumeration(ParseIncreaseType(t).value, t);
      assert t != "";
    }
  }

  /** An accepted `analyze_fund` call passes the code, start window and
      amounts through unchanged, and builds the yearly increase exactly when
      both halves are given and the value is not 0. */
  lemma AnalyzeFundForwards(args: Args)
    requires HandleToolCall("analyze_fund", args).Call?
    ensures AnalyzeFundArgumentsValid(args)
    ensures HandleToolCall("analyze_fund", args).call.AnalyzeFund?
    ensures var p := HandleToolCall("analyze_fund", args).call.analysisParams;
            && args["code"] == Str(p.code)
            && args["startDate"] == Str(p.startDate.Text())
            && args["initialInvestment"] == Num(p.initialInvestment)
            && NumberOf(p.monthlyInvestment) == Get(args, "monthlyInvestment")
            && BooleanOf(p.includeMonthlyDetails) == Get(args, "includeMonthlyDetails")
            && (p.yearlyIncrease.Some? <==>
                  "yearlyIncreaseType" in args && "yearlyIncreaseValue" in args
                  && args["yearlyIncreaseValue"] != Num(0.0))
            && (p.yearlyIncrease.Some? ==>
                  args["yearlyIncreaseType"] == Str(p.yearlyIncrease.value.kind.Text())
                  && args["yearlyIncreaseValue"] == Num(p.yearlyIncrease.value.value))
  {
    var s := AnalyzeFundSchema;
    AnalyzeFundAcceptance(args);
    DispatchValidates("analyze_fund", args);
    assert HandleToolCall("analyze_fund", args).call == AnalyzeFundCall(Strip(s, args));
    ParsedPropertyRead(s, args, 0);
    ParsedPropertyRead(s, args, 1);
    ParsedPropertyRead(s, args, 2);
    ParsedPropertyRead(s, args, 3);
    ParsedPropertyRead(s, args, 4);
    ParsedPropertyRead(s, args, 5);
    ParsedPropertyRead(s, args, 6);
    AnalysisFromReads(Strip(s, args), args);
  }

  /** An accepted `fund_historical_data` call puts the code in the path and
      sends every other parsed field, and nothing else, as the query. */
  lemma HistoricalDataSplitsCode(args: Args)
    requires HandleToolCall("fund_historical_data", args).Call?
    ensures "code" in args && args["code"].Str?
    ensures Build(HandleToolCall("fund_historical_data", args).call)
            == Success(Request("/funds/" + args["code"].s + "/historical", Strip(HistoricalDataSchema[1..], args)))
    ensures Lookup(Strip(HistoricalDataSchema[1..], args), "code") == None
  {
    var s := HistoricalDataSchema;
    assert FieldOk(s[0], args);
    ParsedPropertyRead(s, args, 0);
    HistoricalDataParamsRoundTrip(args);
    StripOmitsUndeclared(s[1..], args, "code");
  }

  // An accepted call of a validated list tool sends exactly the validator's
  // output object as its query.

  /** An accepted call of a validated case label conforms, and its call is
      built from the parsed object. */
  lemma ValidatedCall(name: string, schema: ObjectSchema, build: Entries -> ApiCall, args: Args)
    requires Catalog.SchemaFor(name) == Some(schema) && CallBuilder(name) == build
    requires name != "company_details"
    requires HandleToolCall(name, args).Call?
    ensures Conforms(schema, args)
    ensures HandleToolCall(name, args).call == build(Strip(schema, args))
  {
    DispatchValidates(name, args);
  }

  lemma ListFundsSendsParsedObject(args: Args)
    requires HandleToolCall("list_funds", args).Call?
    ensures Build(HandleToolCall("list_funds", args).call) == Success(Request("/funds", Strip(ListFundsSchema, args)))
  {
    ValidatedCall("list_funds", ListFundsSchema, ListFundsCall, args);
    var p := ListFundsParamsFrom(Strip(ListFundsSchema, args));
    assert HandleToolCall("list_funds", args).call == ListFunds(p);
    ListFundsParamsRoundTrip(args);
    assert Build(ListFunds(p)) == Success(Request("/funds", ListFundsQuery(p)));
  }

  lemma ListCompaniesSendsParsedObject(args: Args)
    requires HandleToolCall("list_companies", args).Call?
    ensures Build(HandleToolCall("list_companies", args).call) == Success(Request("/companies", Strip(ListCompaniesSchema, args)))
  {
    ValidatedCall("list_companies", ListCompaniesSchema, ListCompaniesCall, args);
    var p := ListCompaniesParamsFrom(Strip(ListCompaniesSchema, args));
    assert HandleToolCall("list_companies", args).call == ListCompanies(p);
    ListCompaniesParamsRoundTrip(args);
    assert Build(ListCompanies(p)) == Success(Request("/companies", ListCompaniesQuery(p)));
  }

  lemma StatisticsSendsParsedObject(args: Args)
    requires HandleToolCall("statistics", args).Call?
    ensures Build(HandleToolCall("statistics", args).call) == Success(Request("/statistics", Strip(StatisticsSchema, args)))
  {
    ValidatedCall("statistics", StatisticsSchema, StatisticsCall, args);
    var p := StatisticsParamsFrom(Strip(StatisticsSchema, args));
    assert HandleToolCall("statistics", args).call == GetStatistics(p);
    StatisticsParamsRoundTrip(args);
    assert Build(GetStatistics(p)) == Success(Request("/statistics", StatisticsQuery(p)));
  }

  lemma FundTypesSendsParsedObject(args: Args)
    requires HandleToolCall("list_fund_types", args).Call?
    ensures Build(HandleToolCall("list_fund_types", args).call) == Success(Request("/fund-types", Strip(FundTypesSchema, args)))
  {
    ValidatedCall("list_fund_types", FundTypesSchema, FundTypesCall, args);
    var p := FundTypesParamsFrom(Strip(FundTypesSchema, args));
    assert HandleToolCall("list_fund_types", args).call == ListFundTypes(p);
    FundTypesParamsRoundTrip(args);
    assert Build(ListFundTypes(p)) == Success(Request("/fund-types", FundTypesQuery(p)));
  }

  lemma InflationSendsParsedObject(args: Args)
    requires HandleToolCall("inflation_rates", args).Call?
    ensures Build(HandleToolCall("inflation_rates", args).call) == Success(Request("/inflation", Strip(InflationSchema, args)))
  {
    ValidatedCall("inflation_rates", InflationSchema, InflationCall, args);
    var p := InflationParamsFrom(Strip(InflationSchema, args));
    assert HandleToolCall("inflation_rates", args).call == GetInflationRates(p);
    InflationParamsRoundTrip(args);
    assert Build(GetInflationRates(p)) == Success(Request("/inflation", InflationQuery(p)));
  }

  /** The four unvalidated tools never reject: they forward the raw
      argument values, whatever they are. */
  lemma UncheckedToolsNeverReject(args: Args)
    ensures HandleToolCall("top_performing_funds", args) == Call(GetTopPerformingFunds(Get(args, "reference_funds")))
    ensures HandleToolCall("statistics_by_date", args) == Call(GetStatisticsByDate(Get(args, "date")))
    ensures HandleToolCall("fund_type_details", args) == Call(GetFundTypeDetails(Get(args, "type")))
    ensures HandleToolCall("inflation_rate_by_month", args)
            == Call(GetInflationRateByMonth(Get(args, "year"), Get(args, "month")))
  {
  }

  /** So the catalog's requirements for `inflation_rate_by_month` are not
      enforced: without arguments the client is still called, with
      `undefined` for both path segments. */
  lemma InflationMonthMissingArguments()
    ensures Catalog.Find("inflation_rate_by_month") == Some(Catalog.InflationRateByMonthTool)
    ensures !Catalog.Satisfies(Catalog.InflationRateByMonthTool, map[])
    ensures Build(HandleToolCall("inflation_rate_by_month", map[]).call)
            == Success(Request("/inflation/undefined/undefined", []))
  {
    Catalog.FindListed("inflation_rate_by_month", 14);
    assert "year" in Catalog.InflationRateByMonthTool.required;
    InflationMonthEmptyRequest();
  }

  lemma InflationMonthEmptyRequest()
    ensures Build(HandleToolCall("inflation_rate_by_month", map[]).call)
            == Success(Request("/inflation/undefined/undefined", []))
  {
    var empty: Args := map[];
    UncheckedToolsNeverReject(empty);
    assert HandleToolCall("inflation_rate_by_month", empty) == Call(GetInflationRateByMonth(None, None));
    assert Interpolate(None) == Success("undefined");
    assert "/inflation/" + "undefined" + "/" + "undefined" == "/inflation/undefined/undefined";
  }

  /** Nor are its bounds: a year before 2000 and a month 13 are requested as given. */
  lemma InflationMonthBoundsUnenforced()
    ensures !Catalog.Satisfies(Catalog.InflationRateByMonthTool, map["year" := Num(1999.0), "month" := Num(13.0)])
    ensures HandleToolCall("inflation_rate_by_month", map["year" := Num(1999.0), "month" := Num(13.0)])
            == Call(GetInflationRateByMonth(Some(Num(1999.0)), Some(Num(13.0))))
  {
    var tool := Catalog.InflationRateByMonthTool;
    var bad := map["year" := Num(1999.0), "month" := Num(13.0)];
    assert tool.properties[0].name == "year" && "year" in bad;
    assert !Catalog.PropertyHolds(tool.properties[0], bad["year"]);
    UncheckedToolsNeverReject(bad);
  }

  // Error messages and the end-to-end result.

  /** With no property name containing a dot, an issue's printed path splits
      back into its keys (array indices print as their digits). */
  lemma PathTextRecoverable(path: seq<PathKey>)
    requires |path| > 0
    requires forall k, i :: 0 <= k < |path| && path[k].Key? && 0 <= i < |path[k].name| ==> path[k].name[i] != '.'
    ensures Split(PathText(path), '.') == KeyTexts(path)
  {
    var texts := KeyTexts(path);
    forall k, i | 0 <= k < |texts| && 0 <= i < |texts[k]|
      ensures texts[k][i] != '.'
    {
      if path[k].Index? {
        assert IsDigit(NatText(path[k].index)[i]);
      }
    }
    SplitJoin(texts, '.');
  }

  /** A parameter error's message starts with `Parametre hatası: ` and
      contains the line of every issue. */
  lemma ParamErrorReportsEachIssue(issues: seq<Issue>, messageOf: IssueCode -> string, k: nat)
    requires k < |issues|
    ensures StartsWith(ParamErrorText(issues, messageOf), ParamErrorPrefix)
    ensures exists o :: OccursAt(ParamErrorText(issues, messageOf), IssueText(issues[k], messageOf), o)
  {
    var lines := seq(|issues|, i requires 0 <= i < |issues| => IssueText(issues[i], messageOf));
    var body := Join(lines, ", ");
    assert ParamErrorText(issues, messageOf) == ParamErrorPrefix + body;
    assert (ParamErrorPrefix + body)[..|ParamErrorPrefix|] == ParamErrorPrefix;
    JoinContainsParts(lines, ", ", k);
    var o :| OccursAt(body, lines[k], o);
    var n := |ParamErrorPrefix|;
    assert (ParamErrorPrefix + body)[n + o..n + o + |lines[k]|] == body[o..o + |lines[k]|];
    assert OccursAt(ParamErrorText(issues, messageOf), IssueText(issues[k], messageOf), n + o);
  }

  /** `handleToolCall` succeeds exactly when it makes a call whose request
      is built and answered, and then returns the response body unchanged. */
  lemma InvokeDelivers(name: string, args: Args, messageOf: IssueCode -> string, send: Transport)
    ensures Invoke(name, args, messageOf, send).Success? <==>
              && HandleToolCall(name, args).Call?
              && Build(HandleToolCall(name, args).call).Success?
              && send(Build(HandleToolCall(name, args).call).value).Ok?
    ensures Invoke(name, args, messageOf, send).Success? ==>
              Invoke(name, args, messageOf, send).value == send(Build(HandleToolCall(name, args).call).value).body
  {
  }

  /** The three kinds of error stay apart: the message starts with the
      unknown-tool prefix exactly for an unknown name, with the
      parameter-error prefix exactly for rejected arguments, and otherwise
      is the client's error, rethrown unchanged. */
  lemma ErrorOrigins(outcome: Outcome, messageOf: IssueCode -> string, send: Transport)
    requires Respond(outcome, messageOf, send).Failure?
    ensures StartsWith(Respond(outcome, messageOf, send).error, UnknownToolPrefix) <==> outcome.UnknownTool?
    ensures StartsWith(Respond(outcome, messageOf, send).error, ParamErrorPrefix) <==> outcome.ParamError?
    ensures outcome.Call? ==> Respond(outcome, messageOf, send).error == Perform(send, outcome.call).error
  {
    var e := Respond(outcome, messageOf, send).error;
    match outcome
    case UnknownTool(n) =>
      PrefixedMessage(UnknownToolPrefix, n);
    case ParamError(issues) =>
      var lines := seq(|issues|, i requires 0 <= i < |issues| => IssueText(issues[i], messageOf));
      PrefixedMessage(ParamErrorPrefix, Join(lines, ", "));
    case Call(call) =>
      ClientErrorOrigins(send, call);
      FirstLetterExcludes(e);
  }

  /** A message made of one of the two prefixes starts with that prefix and
      not with the other. */
  lemma PrefixedMessage(prefix: string, rest: string)
    requires prefix == UnknownToolPrefix || prefix == ParamErrorPrefix
    ensures StartsWith(prefix + rest, prefix)
    ensures StartsWith(prefix + rest, UnknownToolPrefix) <==> prefix == UnknownToolPrefix
    ensures StartsWith(prefix + rest, ParamErrorPrefix) <==> prefix == ParamErrorPrefix
  {
    var e := prefix + rest;
    assert e[..|prefix|] == prefix;
    assert e[0] == prefix[0];
  }

  /** A client error starts with neither prefix. */
  lemma FirstLetterExcludes(e: string)
    requires |e| > 0 && e[0] in ['A', '2', 'C']
    ensures !StartsWith(e, UnknownToolPrefix) && !StartsWith(e, ParamErrorPrefix)
  {
    assert UnknownToolPrefix[0] == 'B' && ParamErrorPrefix[0] == 'P';
    FirstLetterOfPrefix(e, UnknownToolPrefix);
    FirstLetterOfPrefix(e, ParamErrorPrefix);
  }

  /** A string that starts with a non-empty prefix shares its first letter. */
  lemma FirstLetterOfPrefix(s: string, prefix: string)
    requires |prefix| > 0
    ensures StartsWith(s, prefix) ==> |s| > 0 && s[0] == prefix[0]
  {
  }

  /** A raw path argument without a text form, such as an object with its
      own `toString` key, passes the dispatcher but makes the client throw
      the conversion's `TypeError`, which is rethrown unchanged. */
  lemma UncheckedPathArgumentThrows(v: Value, messageOf: IssueCode -> string, send: Transport)
    requires !Convertible(v)
    ensures Invoke("statistics_by_date", map["date" := v], messageOf, send) == Failure(ConversionError)
    ensures Invoke("fund_type_details", map["type" := v], messageOf, send) == Failure(ConversionError)
    ensures Invoke("inflation_rate_by_month", map["year" := v], messageOf, send) == Failure(ConversionError)
  {
    var date := map["date" := v];
    var kind := map["type" := v];
    var year := map["year" := v];
    UncheckedToolsNeverReject(date);
    UncheckedToolsNeverReject(kind);
    UncheckedToolsNeverReject(year);
    assert Get(date, "date") == Some(v) && Get(kind, "type") == Some(v) && Get(year, "year") == Some(v);
    PathArgumentsConvert(Some(v), Get(year, "month"));
    RespondToFailedBuild(GetStatisticsByDate(Some(v)), messageOf, send);
    RespondToFailedBuild(GetFundTypeDetails(Some(v)), messageOf, send);
    RespondToFailedBuild(GetInflationRateByMonth(Some(v), Get(year, "month")), messageOf, send);
  }

  lemma RespondToFailedBuild(call: ApiCall, messageOf: IssueCode -> string, send: Transport)
    requires Build(call).Failure?
    ensures Respond(Call(call), messageOf, send) == Failure(Build(call).error)
  {
  }

  /** For instance, `statistics_by_date` with the date `{"toString": "x"}`. */
  lemma StatisticsByDateObjectThrows(messageOf: IssueCode -> string, send: Transport)
    ensures Invoke("statistics_by_date", map["date" := Obj(map["toString" := Str("x")])], messageOf, send)
            == Failure(ConversionError)
  {
    var x := Obj(map["toString" := Str("x")]);
    assert !Convertible(x);
    UncheckedPathArgumentThrows(x, messageOf, send);
  }
}

=== FILE: types.dfy ===
/** The enumerations and parameter records that the remote API's client and
    the tool dispatcher share. Numbers are JavaScript numbers, modelled as
    `real`; an optional property is an `Option`. */
module Types {
  import opened Wrappers

  /** The first element of `all` whose text is `s`, if any: how a string
      is read back as a member of a string enumeration. */
  function FindByText<T>(all: seq<T>, text: T -> string, s: string): (r: Option<T>)
    ensures r.Some? ==> r.value in all && text(r.value) == s
    ensures r.None? ==> forall i :: 0 <= i < |all| ==> text(all[i]) != s
  {
    if |all| == 0 then None
    else if text(all[0]) == s then Some(all[0])
    else FindByText(all[1..], text, s)
  }

  /** The texts of the members of an enumeration, in declaration order. */
  function TextsOf<T>(all: seq<T>, text: T -> string): (r: seq<string>)
    ensures |r| == |all|
    ensures forall i :: 0 <= i < |all| ==> r[i] == text(all[i])
  {
    seq(|all|, i requires 0 <= i < |all| => text(all[i]))
  }

  /** The fourteen fund categories of the remote service. */
  datatype FundType =
    | Altin | BorclanmaAraclari | Degisken | FonSepeti | Gumus
    | HisseSenedi | HisseSenediYogun | Karma | Katilim | KiymetliMadenler
    | ParaPiyasasi | Serbest | Yabanci | Diger
  {
    function Text(): string {
      match this
      case Altin => "altin"
      case BorclanmaAraclari => "borclanma_araclari"
      case Degisken => "degisken"
      case FonSepeti => "fon_sepeti"
      case Gumus => "gumus"
      case HisseSenedi => "hisse_senedi"
      case HisseSenediYogun => "hisse_senedi_yogun"
      case Karma => "karma"
      case Katilim => "katilim"
      case KiymetliMadenler => "kiymetli_madenler"
      case ParaPiyasasi => "para_piyasasi"
      case Serbest => "serbest"
      case Yabanci => "yabanci"
      case Diger => "diger"
    }
  }

  /** The fund types in declaration order, which is the order in which
      `Object.values` lists them. */
  const AllFundTypes: seq<FundType> := [
    Altin, BorclanmaAraclari, Degisken, FonSepeti, Gumus,
    HisseSenedi, HisseSenediYogun, Karma, Katilim, KiymetliMadenler,
    ParaPiyasasi, Serbest, Yabanci, Diger
  ]

  function FundTypeTexts(): seq<string> {
    TextsOf(AllFundTypes, (t: FundType) => t.Text())
  }

  function ParseFundType(s: string): Option<FundType> {
    FindByText(AllFundTypes, (t: FundType) => t.Text(), s)
  }

  /** Sort direction of every list endpoint. */
  datatype SortOrder = Asc | Desc {
    function Text(): string {
      match this
      case Asc => "ASC"
      case Desc => "DESC"
    }
  }

  const AllSortOrders: seq<SortOrder> := [Asc, Desc]

  function SortOrderTexts(): seq<string> {
    TextsOf(AllSortOrders, (o: SortOrder) => o.Text())
  }

  function ParseSortOrder(s: string): Option<SortOrder> {
    FindByText(AllSortOrders, (o: SortOrder) => o.Text(), s)
  }

  /** Sampling interval of a fund's historical values. */
  datatype Interval = Daily | Weekly | Monthly {
    function Text(): string {
      match this
      case Daily => "daily"
      case Weekly => "weekly"
      case Monthly => "monthly"
    }
  }

  const AllIntervals: seq<Interval> := [Daily, Weekly, Monthly]

  function IntervalTexts(): seq<string> {
    TextsOf(AllIntervals, (i: Interval) => i.Text())
  }

  function ParseInterval(s: string): Option<Interval> {
    FindByText(AllIntervals, (i: Interval) => i.Text(), s)
  }

  /** The nine look-back windows an investment analysis can start from. */
  datatype StartDate =
    | Last1Day | Last1Week | Last1Month | Last3Months | Last6Months
    | YearStart | Last1Year | Last3Years | Last5Years
  {
    function Text(): string {
      match this
      case Last1Day => "last_1_day"
      case Last1Week => "last_1_week"
      case Last1Month => "last_1_month"
      case Last3Months => "last_3_months"
      case Last6Months => "last_6_months"
      case YearStart => "year_start"
      case Last1Year => "last_1_year"
      case Last3Years => "last_3_years"
      case Last5Years => "last_5_years"
    }
  }

  const AllStartDates: seq<StartDate> := [
    Last1Day, Last1Week, Last1Month, Last3Months, Last6Months,
    YearStart, Last1Year, Last3Years, Last5Years
  ]

  function StartDateTexts(): seq<string> {
    TextsOf(AllStartDates, (d: StartDate) => d.Text())
  }

  function ParseStartDate(s: string): Option<StartDate> {
    FindByText(AllStartDates, (d: StartDate) => d.Text(), s)
  }

  /** Whether a yearly increase of the periodic investment is a percentage
      or a fixed amount. */
  datatype IncreaseType = Percentage | Amount {
    function Text(): string {
      match this
      case Percentage => "percentage"
      case Amount => "amount"
    }
  }

  const AllIncreaseTypes: seq<IncreaseType> := [Percentage, Amount]

  function IncreaseTypeTexts(): seq<string> {
    TextsOf(AllIncreaseTypes, (k: IncreaseType) => k.Text())
  }

  function ParseIncreaseType(s: string): Option<IncreaseType> {
    FindByText(AllIncreaseTypes, (k: IncreaseType) => k.Text(), s)
  }

  /** The nested yearly-increase object: when present, both halves are. */
  datatype YearlyIncrease = YearlyIncrease(kind: IncreaseType, value: real)

  /** Parameters of an investment analysis: `code`, `startDate` and
      `initialInvestment` are always present. */
  datatype FundAnalysisParams = FundAnalysisParams(
    code: string,
    startDate: StartDate,
    initialInvestment: real,
    monthlyInvestment: Option<real>,
    yearlyIncrease: Option<YearlyIncrease>,
    includeMonthlyDetails: Option<bool>)

  datatype ListFundsParams = ListFundsParams(
    page: Option<real>,
    limit: Option<real>,
    fundType: Option<FundType>,
    search: Option<string>,
    code: Option<string>,
    managementCompany: Option<string>,
    tefas: Option<bool>,
    minRiskValue: Option<real>,
    maxRiskValue: Option<real>,
    sort: Option<string>,
    order: Option<SortOrder>)

  datatype ListCompaniesParams = ListCompaniesParams(
    page: Option<real>,
    limit: Option<real>,
    sort: Option<string>,
    order: Option<SortOrder>,
    minTotalFunds: Option<real>,
    maxTotalFunds: Option<real>,
    search: Option<string>)

  datatype HistoricalDataParams = HistoricalDataParams(
    startDate: Option<string>,
    endDate: Option<string>,
    interval: Option<Interval>,
    sort: Option<string>,
    order: Option<SortOrder>)

  datatype StatisticsParams = StatisticsParams(
    startDate: Option<string>,
    endDate: Option<string>,
    sort: Option<string>,
    order: Option<SortOrder>,
    page: Option<real>,
    limit: Option<real>)

  datatype FundTypesParams = FundTypesParams(
    sort: Option<string>,
    order: Option<SortOrder>,
    minTotalFunds: Option<real>,
    maxTotalFunds: Option<real>)

  datatype InflationParams = InflationParams(
    startDate: Option<string>,
    endDate: Option<string>)

  /** The envelope of every paginated list response. */
  datatype PaginatedResponse<T> = PaginatedResponse(total: real, page: real, limit: real, data: seq<T>)

  /** The fund-type enumeration has exactly fourteen members, lists each of
      them, and no two members share a string value. */
  lemma FundTypeEnumeration()
    ensures |AllFundTypes| == 14
    ensures forall t: FundType :: t in AllFundTypes
    ensures forall a: FundType, b: FundType :: a.Text() == b.Text() ==> a == b
    ensures forall i, j :: 0 <= i < j < |FundTypeTexts()| ==> FundTypeTexts()[i] != FundTypeTexts()[j]
  {
    forall t: FundType ensures t in AllFundTypes {
      match t
      case Altin => assert AllFundTypes[0] == t;
      case BorclanmaAraclari => assert AllFundTypes[1] == t;
      case Degisken => assert AllFundTypes[2] == t;
      case FonSepeti => assert AllFundTypes[3] == t;
      case Gumus => assert AllFundTypes[4] == t;
      case HisseSenedi => assert AllFundTypes[5] == t;
      case HisseSenediYogun => assert AllFundTypes[6] == t;
      case Karma => assert AllFundTypes[7] == t;
      case Katilim => assert AllFundTypes[8] == t;
      case KiymetliMadenler => assert AllFundTypes[9] == t;
      case ParaPiyasasi => assert AllFundTypes[10] == t;
      case Serbest => assert AllFundTypes[11] == t;
      case Yabanci => assert AllFundTypes[12] == t;
      case Diger => assert AllFundTypes[13] == t;
    }
  }

  /** Reading a fund type's text gives the fund type back, and exactly the
      fourteen texts are read. */
  lemma ParseFundTypeRoundTrip(t: FundType, s: string)
    ensures ParseFundType(t.Text()) == Some(t)
    ensures ParseFundType(s).Some? <==> s in FundTypeTexts()
  {
    FundTypeEnumeration();
    assert t in AllFundTypes;
    var i :| 0 <= i < |AllFundTypes| && AllFundTypes[i] == t;
    assert FundTypeTexts()[i] == t.Text();
  }

  /** Every sort direction is `ASC` or `DESC`, and reading its text gives it back. */
  lemma SortOrderEnumeration(o: SortOrder, s: string)
    ensures SortOrderTexts() == ["ASC", "DESC"]
    ensures ParseSortOrder(o.Text()) == Some(o)
    ensures ParseSortOrder(s).Some? <==> s == "ASC" || s == "DESC"
  {
  }

  /** The historical interval is `daily`, `weekly` or `monthly`. */
  lemma IntervalEnumeration(i: Interval, s: string)
    ensures IntervalTexts() == ["daily", "weekly", "monthly"]
    ensures ParseInterval(i.Text()) == Some(i)
    ensures ParseInterval(s).Some? <==> s in IntervalTexts()
  {
  }

  /** The analysis start date is one of nine distinct window names. */
  lemma StartDateEnumeration(d: StartDate, s: string)
    ensures |StartDateTexts()| == 9
    ensures forall i, j :: 0 <= i < j < 9 ==> StartDateTexts()[i] != StartDateTexts()[j]
    ensures ParseStartDate(d.Text()) == Some(d)
    ensures ParseStartDate(s).Some? <==> s in StartDateTexts()
  {
    match d
    case Last1Day => assert AllStartDates[0] == d;
    case Last1Week => assert AllStartDates[1] == d;
    case Last1Month => assert AllStartDates[2] == d;
    case Last3Months => assert AllStartDates[3] == d;
    case Last6Months => assert AllStartDates[4] == d;
    case YearStart => assert AllStartDates[5] == d;
    case Last1Year => assert AllStartDates[6] == d;
    case Last3Years => assert AllStartDates[7] == d;
    case Last5Years => assert AllStartDates[8] == d;
  }

  /** The yearly increase type is `percentage` or `amount`. */
  lemma IncreaseTypeEnumeration(k: IncreaseType, s: string)
    ensures IncreaseTypeTexts() == ["percentage", "amount"]
    ensures ParseIncreaseType(k.Text()) == Some(k)
    ensures ParseIncreaseType(s).Some? <==> s in IncreaseTypeTexts()
  {
  }
}

=== FILE: wrappers.dfy ===
/** An optional value, and the outcome of a step that may throw. */
module Wrappers {

  /** A JavaScript value that may be `undefined`, or an optional parameter. */
  datatype Option<+T> = None | Some(value: T) {

    /** The value, or `default` when it is missing: a default parameter or
        an `a ?? b` fallback. */
    function GetOr(default: T): T {
      match this
      case Some(v) => v
      case None => default
    }
  }

  /** The outcome of a step that may throw: its value, or the message of
      the `Error` it throws. */
  datatype Result<+R, +E> = Success(value: R) | Failure(error: E)
}
